=== FILE: README.md ===
# Influencer discovery page: query pipeline model

This project models, in Dafny, the logic of the influencer discovery page of
`fe-assignment`. The page filters, sorts and pages a list of influencer
records, keeps its state in the address bar, and keeps a "watch later" list.
The model covers:

- **the mock query engine** (`mockQuery`): the AND of inclusive numeric bounds and equality tests, then the comparator sort (numbers by difference, everything else by string comparison, with 'desc' swapping the operands), then the page window;
- **the data-source decision** (`fetchInfluencers`): forced mock, no endpoint, or remote data with a fallback to the mock on any failure. The remote request's query (`fetchRemote`) is included;
- **the page component's state** (`DiscoverPageState`):
  - initialisation from the address bar;
  - the parameter record shared by the fetch and the address bar;
  - the load effect, which writes the address bar and clears the selection;
  - the client-side re-sort;
  - sort-header toggling, row selection, the watch-later button, page changes and filter application;
- **`src/lib/url.ts`**: `toQueryString`, `fromSearchParams`, `parseNumber`, `parseBool`. `URLSearchParams` follows section 6.2 of the WHATWG URL Standard (the `URLSearchParams` class): `set` replaces the first pair of a name and drops the rest;
- **`src/lib/storage.ts`**: reading the stored list, storing it deduplicated, and toggling one id;
- **`src/components/FilterModal.tsx`**: the filter record and the dialog's draft, updated one field per input, then Apply;
- **`src/components/Pagination.tsx`**: the previous/next flags and the guarded page step.

## Modules

| file | module | models |
|---|---|---|
| `js_runtime.dfy` | `JsRuntime` | the JavaScript semantics used: `Number()` on signed decimal integers, `String()` of numbers, NaN comparisons, `Array.prototype.slice`, and a string order standing in for `localeCompare` |
| `seq_facts.dfy` | `SeqFacts` | duplicate-freedom, `filter(x => x !== v)`, subsequences, permutations |
| `url.dfy` | `Url` | `src/lib/url.ts` |
| `storage.dfy` | `Storage` | `src/lib/storage.ts`; the stored entry is an abstract parsed-JSON value held by the class `WatchlistStore` |
| `filter_modal.dfy` | `FilterModal` | `src/components/FilterModal.tsx`; class `FilterDialog` holds the draft |
| `pagination.dfy` | `Pagination` | `src/components/Pagination.tsx` |
| `discover_query.dfy` | `DiscoverQuery` | `src/app/discover/page.tsx` lines 10-115 |
| `discover_page.dfy` | `DiscoverPage` | `src/app/discover/page.tsx` lines 117-299; class `DiscoverPageState` holds the component's state |

### Modelling choices

- **Numbers.** A number is an unbounded integer or NaN (`JsRuntime.Num`).
- **Sorting.** `arr.sort(comparator)` must be stable (ES2019). It is modelled as an in-place insertion sort, `SortInPlace`, proved equal to the function `SortBy`. Every property of the sort is proved about `SortBy`: permutation, comparator order, stability, and order on numeric keys.
- **Network and environment as parameters.**
  - The network's answer is the `HttpResponse` parameter: either `fetch` rejects (`Unreachable`), or a response arrives with its status and its parsed body (JSON `null` or an object) or a parse failure.
  - The environment is the `Config` parameter: `NEXT_PUBLIC_API_BASE_URL`, whether `new URL('/api/discover', base)` accepts that base, and `NEXT_PUBLIC_USE_MOCK`.
- **The load effect.** It is split into two methods:
  - `BeginLoad` is the synchronous part: status, error, and the query string for `router.replace`.
  - `FinishLoad` is the settling of the request.
- **A query string** is its list of name-value pairs.

### Notes on the code's behaviour

- The request carries the page's own keys unchanged: the filter keys, `page`, `pageSize`, `sortField` and `sortOrder` (`DiscoverQuery.ParamEntries`, `DiscoverQuery.RemoteQuery`). The response body is used as it comes, with `items ?? []` and `total ?? items.length`.
- `{min_follower: 500000000}` keeps three of the five mock records: ids 1, 2 and 3, with 694391240, 663491330 and 506278633 followers (`DiscoverQuery.MinFollowerScenario`).
- A `min` above its `max` yields no records and no error (`DiscoverQuery.EmptyRangeMatchesNothing`).
- `is_verified: false` is not collapsed by the filter itself: a `false` flag keeps only unverified records. No reachable state holds `false`, though: the checkbox and `parseBool` never produce it (`FilterModal.CheckboxValue`, `Url.ParseBool`), and the address bar turns it into "absent" (`DiscoverPage.NormalizedMatchesSame`).
- When `sortOrder` is anything but `'asc'`, the comparator sorts descending. `mockQuery` defaults `sortOrder` to `'asc'`, but the page always sends its own order, which defaults to `'desc'` (`DiscoverPage.SortOrderFromQuery`).
- `parseNumber(init.page) || 1` keeps a negative page: `?page=-1` gives page -1 (`DiscoverPage.NegativePageFromQuery`). On page -1 Next is enabled, and the page it leads to, page 0, is always empty (`DiscoverQuery.NextFromPageMinusOne`).
- The status `'error'` arises in one way only: a remote ok (2xx) response whose body is JSON `null`. `fetchInfluencers` resolves with it, `data.items` throws inside `.then`, and `.catch` records the TypeError's message (`DiscoverQuery.NullBodyIsRemote`, `DiscoverPage.DiscoverPageState.FinishLoad`). Every other remote failure falls back to the mock.

## Model

| member | source | states |
|---|---|---|
| Url.SetPairAppends | src/lib/url.ts:8 | setting a name not yet present appends the pair at the end |
| Url.Retained | src/lib/url.ts:4-11 | the names written are exactly the keys whose value is not undefined, null or "" |
| Url.SerializeRecord | src/lib/url.ts:4-11 | for a record (distinct keys), the `set` fold gives every kept entry once, in order, as `String(v)` |
| Url.ToQueryString | src/lib/url.ts:4-11 | the loop computes the `set` fold; for a record it writes exactly the kept keys, each once with `String(v)` |
| Url.DecodeLastWins | src/lib/url.ts:13-17 | every name present is a key, and its value is the raw string of its last occurrence; there are no other keys |
| Url.FromSearchParams | src/lib/url.ts:13-17 | the loop builds the map with exactly the names present, last occurrence winning |
| Url.QueryRoundTrip | src/lib/url.ts:4-17 | reading back `toQueryString(q)` maps each kept key to `String(q[k])`, gives absent for every dropped key, and has no other keys |
| Url.ParseNumber | src/lib/url.ts:19-23 | never NaN; undefined for a missing value, for "" and for non-numeric text; for any other text exactly `Number(v)` |
| Url.ParseNumberRoundTrip | src/lib/url.ts:19-23 | `parseNumber(String(n))` gives back `n` for every integer |
| Url.ParseBool | src/lib/url.ts:25-29 | true exactly for "true"; "false" and everything else give undefined; never false |
| Storage.StringsOf | src/lib/storage.ts:13 | keeps exactly the string elements of a parsed array |
| Storage.StringsOfOrder | src/lib/storage.ts:13 | the kept strings are, as JSON values, a subsequence of the array: their order is the array's |
| Storage.StringsOfCounts | src/lib/storage.ts:13 | each string is kept as many times as it occurs in the array |
| Storage.StoredIds | src/lib/storage.ts:7-17 | a missing or unparseable entry, or a non-array, gives []; an array gives its string elements |
| SeqFacts.RemoveAllKeepsOrder | src/app/discover/page.tsx:212 | `prev.filter(x => x !== id)` keeps the other ids in their order |
| SeqFacts.RemoveAt | src/app/discover/page.tsx:212 | in a duplicate-free list, removing the id at position k cuts out exactly that position |
| Storage.Dedupe | src/lib/storage.ts:22 | the deduplicated list has no duplicates and the same members |
| Storage.DedupeOfDistinct | src/lib/storage.ts:22 | a duplicate-free list is stored unchanged |
| Storage.DedupeKeepsFirstOrder | src/lib/storage.ts:22 | the kept ids appear in the order of their first occurrences |
| Storage.WrittenReadsBack | src/lib/storage.ts:7-24 | reading back what `setWatchlist(ids)` wrote gives the deduplicated `ids` |
| Storage.ToggledMembership | src/lib/storage.ts:32-36 | the toggle flips `id`'s membership and no other id's |
| Storage.ToggledShape | src/lib/storage.ts:33-36 | on a duplicate-free list the result is duplicate-free, a new id is appended at the end, and a present id is cut out of its position with the remaining ids in their order |
| Storage.ToggleTwiceMembership | src/lib/storage.ts:32-38 | toggling the same id twice restores every id's membership |
| Storage.WatchlistStore.GetWatchlist | src/lib/storage.ts:7-17 | returns the string ids of the stored entry, [] when missing or invalid |
| Storage.WatchlistStore.SetWatchlist | src/lib/storage.ts:20-24 | stores the deduplicated list |
| Storage.WatchlistStore.IsWatched | src/lib/storage.ts:27-29 | true exactly when the stored list holds the id |
| Storage.WatchlistStore.ToggleWatch | src/lib/storage.ts:32-39 | returns and stores the toggled deduplicated list: `id` flips, the others keep their membership, there are no duplicates, and the stored entry reads back as the result |
| FilterModal.WithRangeIsolated | src/components/FilterModal.tsx:47-70 | a number input changes its own bound and no other field |
| FilterModal.InputNumber | src/components/FilterModal.tsx:37 | undefined exactly for "" |
| FilterModal.InputNumberVersusParseNumber | src/components/FilterModal.tsx:37 | without a NaN guard, non-numeric text becomes a NaN bound where `parseNumber` gives undefined; on numbers the two agree |
| FilterModal.CheckboxValue | src/components/FilterModal.tsx:90-91 | checked gives true, unchecked gives undefined, never false |
| FilterModal.SelectValue | src/components/FilterModal.tsx:77 | the empty option gives undefined, any other option its value |
| FilterModal.GenderSelectValues | src/components/FilterModal.tsx:96-100 | the gender select yields only 'male', 'female' or undefined |
| FilterModal.FilterDialog.constructor | src/components/FilterModal.tsx:26 | the draft starts as the initial filters |
| FilterModal.FilterDialog.SyncInitial | src/components/FilterModal.tsx:28 | a new `initial` replaces the draft |
| FilterModal.FilterDialog.OnRangeInput | src/components/FilterModal.tsx:47-70 | the draft's bound becomes `number(v)` and every other bound is unchanged |
| FilterModal.FilterDialog.OnAgeRangeSelect | src/components/FilterModal.tsx:77-83 | only the age range changes, to the option or undefined |
| FilterModal.FilterDialog.OnVerifiedChange | src/components/FilterModal.tsx:90-91 | only the verified flag changes, and never to false |
| FilterModal.FilterDialog.OnGenderSelect | src/components/FilterModal.tsx:96-100 | only the gender changes, to 'male', 'female' or undefined |
| FilterModal.FilterDialog.Apply | src/components/FilterModal.tsx:106 | the draft is handed over unchanged |
| Pagination.PrevClick | src/components/Pagination.tsx:11-16 | Prev calls `onChange(page - 1)` exactly when page > 1, and the target is at least 1 |
| Pagination.NextClick | src/components/Pagination.tsx:12-18 | Next calls `onChange(page + 1)` exactly when page × pageSize < total |
| Pagination.FirstOfOnePage | src/components/Pagination.tsx:11-12 | page 1 of 20 with total 5 has neither Prev nor Next |
| DiscoverQuery.MatchesIff | src/app/discover/page.tsx:57-71 | a record passes iff every present numeric bound holds inclusively (a NaN bound constrains nothing), a truthy age range or gender matches exactly, and a defined verified flag agrees as a boolean |
| DiscoverQuery.FilterMembership | src/app/discover/page.tsx:57-71 | a record is in the result exactly when it is in the input and passes the filters |
| DiscoverQuery.FilterIsSubsequence | src/app/discover/page.tsx:57-71 | the filtered list is a subsequence of the input in the original order |
| DiscoverQuery.FilterNone | src/app/discover/page.tsx:57-71 | when nothing passes, the result is empty |
| DiscoverQuery.FilterAll | src/app/discover/page.tsx:57-71 | when everything passes, the list is unchanged |
| DiscoverQuery.EmptyRangeMatchesNothing | src/app/discover/page.tsx:61-66 | a minimum above its maximum, in any range, rejects every record and yields no records rather than an error |
| DiscoverQuery.CompareByKind | src/app/discover/page.tsx:76-85 | on a numeric key the comparator is the difference; on any other key it is the string comparison; 'desc' swaps the operands |
| DiscoverQuery.CompareFlip | src/app/discover/page.tsx:76-85 | swapping the records flips the sign of the comparator |
| DiscoverQuery.CompareTrans | src/app/discover/page.tsx:76-85 | "sorts no later than" is transitive, so the comparator is consistent |
| DiscoverQuery.SortByPermutes | src/app/discover/page.tsx:74-86 | the sorted list is a permutation of its input |
| DiscoverQuery.SortBySorted | src/app/discover/page.tsx:74-86 | the sorted list is in comparator order |
| DiscoverQuery.SortByStable | src/app/discover/page.tsx:74-86 | records that tie keep their relative input order, in both directions |
| DiscoverQuery.SortedNumericKey | src/app/discover/page.tsx:79-81 | on a numeric key, 'asc' is non-decreasing and any other order is non-increasing |
| DiscoverQuery.SortByOfSorted | src/app/discover/page.tsx:74-86 | an already sorted list is left as it is |
| DiscoverQuery.SortByReversed | src/app/discover/page.tsx:74-86 | a list in strictly the opposite order comes out reversed |
| DiscoverQuery.SortInPlace | src/app/discover/page.tsx:74-86 | the in-place sort leaves the array equal to `SortBy` of its old contents |
| DiscoverQuery.InsertInto | src/app/discover/page.tsx:74-86 | one insertion pass places `a[i]` into the sorted prefix and leaves the rest alone |
| DiscoverQuery.ShiftAfter | src/app/discover/page.tsx:74-86 | the records of the sorted prefix that sort after the one being placed move up one slot, in order, and the slot left free follows every record that does not |
| DiscoverQuery.InsertAfterRun | src/app/discover/page.tsx:74-86 | inserting after the last record that does not sort after the new one puts it exactly in that gap |
| DiscoverQuery.MockQuery | src/app/discover/page.tsx:36-92 | `mockQuery` filters, sorts when a sort field is given (defaults: page 1, pageSize 20, 'asc'), counts, and slices, as `Query(MOCK_ITEMS, p)` |
| DiscoverQuery.ArrangeSpec | src/app/discover/page.tsx:73-86 | the arranged records are a permutation of the filtered ones: sorted and stable when a sort is requested, untouched otherwise |
| DiscoverQuery.QueryPage | src/app/discover/page.tsx:88-91 | for a page of at least 1: `total` is the count before paging; the items are the arranged records from (page − 1) × pageSize on, exactly pageSize of them when that many remain, else the rest, and none past the end |
| DiscoverQuery.QueryNonPositivePage | src/app/discover/page.tsx:88-91 | for a page below 1: `total` is still the count before paging; page 0 is empty; a negative page shows the window `slice` counts from the end of the arranged list, both ends clamped at 0 |
| DiscoverQuery.NextPageNonEmpty | src/components/Pagination.tsx:12 | from page 0 up, Next is enabled exactly when the next page of the same query is non-empty |
| DiscoverQuery.NextFromPageMinusOne | src/components/Pagination.tsx:12 | on page -1 Next is enabled whatever the total, yet page 0, the page it asks for, is empty |
| DiscoverQuery.MinFollowerScenario | src/app/discover/page.tsx:27-33 | `{min_follower: 500000000}` over the mock records gives total 3: ids 1, 2, 3 in order |
| DiscoverQuery.UnfilteredFirstPageScenario | src/app/discover/page.tsx:27-33 | no filters, page 1 of 20: all five records, total 5, no next page |
| DiscoverQuery.FollowersDescScenario | src/app/discover/page.tsx:27-33 | sorting the mock records by followers 'desc' keeps their listed order |
| DiscoverQuery.FollowersAscScenario | src/app/discover/page.tsx:27-33 | sorting the mock records by followers 'asc' gives ids 5, 4, 3, 2, 1 |
| DiscoverQuery.ParamEntries | src/app/discover/page.tsx:154-160 | the parameter record has distinct keys |
| DiscoverQuery.RemoteQuery | src/app/discover/page.tsx:98-101 | the request query holds every parameter that is not undefined, null or "", once each, and no empty value |
| DiscoverQuery.FetchRemote | src/app/discover/page.tsx:95-105 | no base URL, a base `new URL` rejects, a rejected `fetch` and a non-ok status (with that status) each throw their own error; an ok answer whose body is not JSON throws the malformed-body error; otherwise the parsed body, JSON `null` included |
| DiscoverQuery.FetchInfluencers | src/app/discover/page.tsx:108-115 | forced mock or no base URL gives the mock result without a request; otherwise the remote body on success and the mock result on any remote failure, keeping the failure |
| DiscoverQuery.NullBodyIsRemote | src/app/discover/page.tsx:104-115 | the served body is JSON `null` exactly when the remote path answers ok (2xx) with a `null` body |
| DiscoverPage.NonEmpty | src/app/discover/page.tsx:129 | `v \|\| undefined` drops exactly the missing and empty values |
| DiscoverPage.PageFromQuery | src/app/discover/page.tsx:135 | the initial page is never 0, and is 1 when the address bar has no page |
| DiscoverPage.NegativePageFromQuery | src/app/discover/page.tsx:135 | `?page=-1` gives page -1 |
| DiscoverPage.SortOrderFromQuery | src/app/discover/page.tsx:138 | a non-empty `sortOrder` in the address bar is taken as it is; a missing or empty one gives 'desc' |
| DiscoverPage.ParamsOf | src/app/discover/page.tsx:154-160 | sortField is sent exactly when set, and sortOrder only with it |
| DiscoverPage.NormalizedIdempotent | src/app/discover/page.tsx:120-138 | the address bar's normalisation is idempotent |
| DiscoverPage.NormalizedMatchesSame | src/app/discover/page.tsx:120-138 | the normalised filters pass the same records unless the verified flag was false, which acts as absent after the round trip |
| DiscoverPage.ParamsReadBack | src/app/discover/page.tsx:173-179 | each of the thirteen written parameters, `pageSize` included, reads back as `String` of its value, or absent when dropped |
| DiscoverPage.FiltersReadBack | src/app/discover/page.tsx:121-131 | the written filters read back as the normalised filters |
| DiscoverPage.UrlRoundTrip | src/app/discover/page.tsx:120-179 | the query string written by the load effect restores the normalised filters, the page (0 becomes 1), the sort field, and the sort order when a field is set |
| DiscoverPage.SortedRowsIds | src/app/discover/page.tsx:186-200 | the client re-sort shows the same ids with the same multiplicities |
| DiscoverPage.IdsSortBy | src/app/discover/page.tsx:186-200 | sorting rows permutes their ids |
| DiscoverPage.AllSelectedIff | src/app/discover/page.tsx:209 | with distinct ids and a selection drawn from them, the length test holds iff rows are shown and every shown row is selected |
| DiscoverPage.ClientSortKeepsMockOrder | src/app/discover/page.tsx:186-200 | in mock mode the client re-sort leaves the served page in its order |
| DiscoverPage.NextSort | src/app/discover/page.tsx:203-206 | a new column sorts 'desc'; the same column flips between 'asc' and 'desc' |
| DiscoverPage.NextSortTwice | src/app/discover/page.tsx:203-206 | two clicks on a new column end 'asc'; two on the current column restore its order |
| DiscoverPage.DiscoverPageState.constructor | src/app/discover/page.tsx:120-148 | the state read from the address bar and storage: nothing loaded, nothing selected, dialog closed |
| DiscoverPage.DiscoverPageState.QueryString | src/app/discover/page.tsx:173-179 | the query string of the state: the kept parameter entries, reading back as the normalised filters, the page (0 becomes 1), the sort field, and the sort order when a field is set |
| DiscoverPage.DiscoverPageState.BeginLoad | src/app/discover/page.tsx:151-179 | status loading, error cleared, and the state's query string returned |
| DiscoverPage.DiscoverPageState.FinishLoad | src/app/discover/page.tsx:161-171 | for an object body: rows from `fetchInfluencers`, total falling back to the row count, status success, selection cleared, error kept; for a JSON `null` body: status error with the TypeError's message, rows, total and selection kept |
| DiscoverPage.DiscoverPageState.ToggleSort | src/app/discover/page.tsx:203-206 | the sort becomes `NextSort` of the old one; nothing else changes |
| DiscoverPage.DiscoverPageState.ToggleSelectAll | src/app/discover/page.tsx:209-210 | [] when all are selected, otherwise every shown id; the selection stays valid; every other field, the error message included, is unchanged |
| DiscoverPage.DiscoverPageState.ToggleSelectOne | src/app/discover/page.tsx:211-213 | exactly the clicked id flips membership; every other field, the error message included, is unchanged |
| DiscoverPage.DiscoverPageState.ToggleWatchAndSync | src/app/discover/page.tsx:216 | the shown watch list is the stored toggled list; every other field, the error message included, is unchanged |
| DiscoverPage.DiscoverPageState.ChangePage | src/app/discover/page.tsx:289 | Pagination's target becomes the page; every other field, the error message included, is unchanged |
| DiscoverPage.DiscoverPageState.ApplyFilters | src/app/discover/page.tsx:297 | applying filters sets them and resets the page to 1; every other field, the error message included, is unchanged |
| DiscoverPage.DiscoverPageState.SetModalOpen | src/app/discover/page.tsx:229 | the filter button opens the dialog and its close handler closes it; every other field, the error message included, is unchanged |

## Left out

- `Number()` beyond signed decimal integers: decimals, exponents, surrounding whitespace, hexadecimal and `Infinity` are NaN in the model. Numbers are unbounded integers, so floating-point subtraction in the comparator and precision loss are not modelled.
- `localeCompare` is replaced by code-unit lexicographic order (`JsRuntime.StrCompare`). Any consistent total order would do for the sort proofs.
- Percent-encoding and decoding of `URLSearchParams.toString()` and of the address bar: a query string is its list of pairs.
- `new URL`, `fetch`, `cache: 'no-store'` and `resp.json()` are I/O. URL parsing is the `Config.baseUrlValid` flag; the network is the `HttpResponse` parameter: a rejected `fetch`, or a status with the parsed body or a parse failure. The response rows are taken as already typed records; a body that is a number, a string or an array has neither `items` nor `total` and is represented as `Body(None, None)`.
- `console.warn` on fallback is a side channel and is not modelled. `MockFallback` keeps the error instead.
- `localStorage`, `JSON.parse`/`JSON.stringify` and the `typeof window` guard: the stored entry is an abstract parsed value.
- React scheduling is not modelled:
  - `useEffect` dependencies and `useMemo` caching. `Shown` recomputes the memo on demand.
  - The `ignore` flag that discards a stale response. `FinishLoad` settles the most recent request.
  - `router.replace` itself. `BeginLoad` returns the pairs it would write.
- The `'unknown error'` message of `.catch`: the only error that reaches it, reading `items` of `null`, is a TypeError, so the message is always the TypeError's. Its wording is the engine's; the model uses V8's (`DiscoverPage.NullItemsMessage`).
- The dialog's `showModal`/`close` effect (`src/components/FilterModal.tsx:30-35`), the inputs' displayed values, and all JSX, styling and `toLocaleString` formatting.
- `src/components/Sidebar.tsx` and `src/app/page.tsx` hold static markup only.
- DiscoverPage.NormalizedMatchesSame: it does not claim that the verified flag `false` survives the address bar. It reads back as absent, and no input produces it.
- Url.DecodeLastWins: a pair named `__proto__` is taken as an ordinary key. In the source, `out[k] = v` on a plain object sends that name to the inherited `__proto__` setter, which ignores a string, so no such key appears. The page reads no key of that name.
- Url.FromSearchParams: the same `__proto__` case as `Url.DecodeLastWins`. The model's map gains the key; the source's object does not.
- Url.QueryRoundTrip: a kept entry named `__proto__` reads back in the model but not in the source, for the reason given under `Url.DecodeLastWins`. The page's parameter record has no such key.
- DiscoverQuery.NextPageNonEmpty: it is stated from page 0 up. A negative page, which `?page=-1` produces, breaks it; `DiscoverQuery.NextFromPageMinusOne` states what happens on page -1.
- DiscoverPage.DiscoverPageState.ToggleSelectOne: it keeps the selection valid only for ids of shown rows, which are the only ids the row checkboxes pass.

=== FILE: discover_page.dfy ===
/**
 * src/app/discover/page.tsx, the page component: the state it keeps, how
 * that state is read from the address bar, the load effect that fetches the
 * rows and writes the state back to the address bar, the client-side sort,
 * row selection and the watch-later button.
 */
module DiscoverPage {
  import opened JsRuntime
  import opened SeqFacts
  import opened FilterModal
  import Url
  import Storage
  import opened DiscoverQuery

  /** `pageSize`: state without a setter, so always 20. */
  const PageSize: int := 20

  /**
   * The message of the TypeError that reading `items` of `null` throws, as
   * V8 words it; other engines word it differently.
   */
  const NullItemsMessage: string := "Cannot read properties of null (reading 'items')"

  /** `status`. */
  datatype Status = Idle | Loading | Error | Success

  // ---------------------------------------------------------------------
  // Reading the address bar

  /** `v || undefined` on an optional string. */
  function NonEmpty(v: Option<string>): (r: Option<string>)
    ensures r.Some? <==> v.Some? && v.value != ""
    ensures r.Some? ==> r == v
  {
    if v.Some? && v.value != "" then v else None
  }

  /** The initial filters, read from the decoded query `init`. */
  function FiltersFromQuery(init: map<string, string>): Filters {
    Filters(
      Url.ParseNumber(Url.Get(init, "min_follower")),
      Url.ParseNumber(Url.Get(init, "max_follower")),
      Url.ParseNumber(Url.Get(init, "min_avg_feed_like")),
      Url.ParseNumber(Url.Get(init, "max_avg_feed_like")),
      Url.ParseNumber(Url.Get(init, "min_real_engagement")),
      Url.ParseNumber(Url.Get(init, "max_real_engagement")),
      NonEmpty(Url.Get(init, "main_audience_age_range")),
      Url.ParseBool(Url.Get(init, "is_verified")),
      NonEmpty(Url.Get(init, "main_audience_gender")))
  }

  /** `parseNumber(init.page) || 1`: a missing, non-numeric or zero page is page 1. */
  function PageFromQuery(init: map<string, string>): (page: int)
    ensures page != 0
    ensures Url.Get(init, "page").None? ==> page == 1
  {
    match Url.ParseNumber(Url.Get(init, "page"))
    case Some(Int(n)) => if n != 0 then n else 1
    case _ => 1
  }

  /** A negative page in the address bar is kept: `?page=-1` is page -1. */
  lemma NegativePageFromQuery()
    ensures PageFromQuery(map["page" := "-1"]) == -1
  {
    assert Url.Get(map["page" := "-1"], "page") == Some("-1");
  }

  /** `init.sortField || ''`. */
  function SortFieldFromQuery(init: map<string, string>): string {
    Url.Get(init, "sortField").GetOr("")
  }

  /** `init.sortOrder || 'desc'`. */
  function SortOrderFromQuery(init: map<string, string>): (order: string)
    ensures order != ""
    ensures NonEmpty(Url.Get(init, "sortOrder")).None? ==> order == "desc"
    ensures NonEmpty(Url.Get(init, "sortOrder")).Some? ==> order == Url.Get(init, "sortOrder").value
  {
    var v := NonEmpty(Url.Get(init, "sortOrder"));
    if v.Some? then v.value else "desc"
  }

  /**
   * The parameter record the load effect builds, both for the fetch and for
   * the address bar: the sort field only when set, and the sort order only
   * with it.
   */
  function ParamsOf(f: Filters, page: int, sortField: string, sortOrder: string): (p: Params)
    ensures p.sortField.Some? <==> sortField != ""
    ensures p.sortOrder.Some? <==> sortField != ""
  {
    Params(f, Some(page), Some(PageSize),
      if sortField != "" then Some(sortField) else None,
      if sortField != "" then Some(sortOrder) else None)
  }

  // ---------------------------------------------------------------------
  // The address bar round trip

  /** A bound as it survives the address bar: a NaN bound is lost. */
  function NumberKept(x: Option<Num>): (r: Option<Num>)
    ensures r.Some? <==> x.Some? && x.value.Int?
    ensures r.Some? ==> r == x
  {
    if x.Some? && x.value.Int? then x else None
  }

  /**
   * The filters as they come back from the address bar: NaN bounds and
   * empty strings are dropped, and a `false` verified flag reads back as
   * undefined.
   */
  function Normalized(f: Filters): Filters {
    Filters(
      NumberKept(f.minFollower), NumberKept(f.maxFollower),
      NumberKept(f.minAvgFeedLike), NumberKept(f.maxAvgFeedLike),
      NumberKept(f.minRealEngagement), NumberKept(f.maxRealEngagement),
      NonEmpty(f.ageRange),
      if f.isVerified == Some(true) then Some(true) else None,
      NonEmpty(f.gender))
  }

  /** Normalising twice changes nothing further. */
  lemma NormalizedIdempotent(f: Filters)
    ensures Normalized(Normalized(f)) == Normalized(f)
  {
  }

  /**
   * Normalised filters keep exactly the same records as the originals,
   * unless the verified flag was `false`: that constraint is lost.
   */
  lemma NormalizedMatchesSame(f: Filters, it: Influencer)
    ensures f.isVerified != Some(false) ==> (Matches(it, Normalized(f)) <==> Matches(it, f))
    ensures f.isVerified == Some(false) ==> (Matches(it, Normalized(f)) <==> Matches(it, f.(isVerified := None)))
  {
    MatchesIff(it, f);
    MatchesIff(it, Normalized(f));
  }

  /** What the address bar gives back for an entry of the parameter record. */
  function ReadBack(v: Url.QueryValue): Option<string> {
    if Url.Kept(v) then Some(Url.StringOf(v)) else None
  }

  lemma NumberReadBack(x: Option<Num>)
    ensures Url.ParseNumber(ReadBack(NumEntry(x))) == NumberKept(x)
  {
    match x
    case None =>
    case Some(n) =>
      match n
      case Int(k) => Url.ParseNumberRoundTrip(k);
      case NaN => NaNRoundTrip();
  }

  lemma StringReadBack(x: Option<string>)
    ensures NonEmpty(ReadBack(StrEntry(x))) == NonEmpty(x)
  {
  }

  /** Each parameter the load effect writes is read back as `ReadBack` of its entry. */
  lemma ParamsReadBack(f: Filters, page: int, sortField: string, sortOrder: string)
    ensures var p := ParamsOf(f, page, sortField, sortOrder);
      var m := Url.Decode(Url.Serialize(ParamEntries(p)));
      && Url.Get(m, "min_follower") == ReadBack(NumEntry(f.minFollower))
      && Url.Get(m, "max_follower") == ReadBack(NumEntry(f.maxFollower))
      && Url.Get(m, "min_avg_feed_like") == ReadBack(NumEntry(f.minAvgFeedLike))
      && Url.Get(m, "max_avg_feed_like") == ReadBack(NumEntry(f.maxAvgFeedLike))
      && Url.Get(m, "min_real_engagement") == ReadBack(NumEntry(f.minRealEngagement))
      && Url.Get(m, "max_real_engagement") == ReadBack(NumEntry(f.maxRealEngagement))
      && Url.Get(m, "main_audience_age_range") == ReadBack(StrEntry(f.ageRange))
      && Url.Get(m, "is_verified") == ReadBack(if f.isVerified.Some? then Url.Bool(f.isVerified.value) else Url.Undefined)
      && Url.Get(m, "main_audience_gender") == ReadBack(StrEntry(f.gender))
      && Url.Get(m, "page") == ReadBack(Url.Number(Int(page)))
      && Url.Get(m, "pageSize") == ReadBack(Url.Number(Int(PageSize)))
      && Url.Get(m, "sortField") == ReadBack(StrEntry(p.sortField))
      && Url.Get(m, "sortOrder") == ReadBack(StrEntry(p.sortOrder))
  {
    var q := ParamEntries(ParamsOf(f, page, sortField, sortOrder));
    EntryReadBack(q, 0);
    EntryReadBack(q, 1);
    EntryReadBack(q, 2);
    EntryReadBack(q, 3);
    EntryReadBack(q, 4);
    EntryReadBack(q, 5);
    EntryReadBack(q, 6);
    EntryReadBack(q, 7);
    EntryReadBack(q, 8);
    EntryReadBack(q, 9);
    EntryReadBack(q, 10);
    EntryReadBack(q, 11);
    EntryReadBack(q, 12);
  }

  /** One entry of a record, written to the address bar and read back. */
  lemma EntryReadBack(q: seq<Url.Entry>, i: nat)
    requires Url.DistinctKeys(q) && i < |q|
    ensures Url.Get(Url.Decode(Url.Serialize(q)), q[i].0) == ReadBack(q[i].1)
  {
    Url.QueryRoundTrip(q);
  }

  /** Reading back the written filters gives the normalised filters. */
  lemma FiltersReadBack(m: map<string, string>, f: Filters)
    requires Url.Get(m, "min_follower") == ReadBack(NumEntry(f.minFollower))
    requires Url.Get(m, "max_follower") == ReadBack(NumEntry(f.maxFollower))
    requires Url.Get(m, "min_avg_feed_like") == ReadBack(NumEntry(f.minAvgFeedLike))
    requires Url.Get(m, "max_avg_feed_like") == ReadBack(NumEntry(f.maxAvgFeedLike))
    requires Url.Get(m, "min_real_engagement") == ReadBack(NumEntry(f.minRealEngagement))
    requires Url.Get(m, "max_real_engagement") == ReadBack(NumEntry(f.maxRealEngagement))
    requires Url.Get(m, "main_audience_age_range") == ReadBack(StrEntry(f.ageRange))
    requires Url.Get(m, "is_verified") == ReadBack(if f.isVerified.Some? then Url.Bool(f.isVerified.value) else Url.Undefined)
    requires Url.Get(m, "main_audience_gender") == ReadBack(StrEntry(f.gender))
    ensures FiltersFromQuery(m) == Normalized(f)
  {
    NumberReadBack(f.minFollower);
    NumberReadBack(f.maxFollower);
    NumberReadBack(f.minAvgFeedLike);
    NumberReadBack(f.maxAvgFeedLike);
    NumberReadBack(f.minRealEngagement);
    NumberReadBack(f.maxRealEngagement);
    StringReadBack(f.ageRange);
    StringReadBack(f.gender);
  }

  /**
   * The address bar round trip: the query string the load effect writes,
   * read back as the page reads its initial state, restores the normalised
   * filters, the page (0 becomes 1), the sort field, and the sort order
   * when a sort field is set ('desc' otherwise).
   */
  lemma UrlRoundTrip(f: Filters, page: int, sortField: string, sortOrder: string)
    ensures var m := Url.Decode(Url.Serialize(ParamEntries(ParamsOf(f, page, sortField, sortOrder))));
      && FiltersFromQuery(m) == Normalized(f)
      && PageFromQuery(m) == (if page == 0 then 1 else page)
      && SortFieldFromQuery(m) == sortField
      && SortOrderFromQuery(m) == (if sortField != "" && sortOrder != "" then sortOrder else "desc")
  {
    var m := Url.Decode(Url.Serialize(ParamEntries(ParamsOf(f, page, sortField, sortOrder))));
    ParamsReadBack(f, page, sortField, sortOrder);
    FiltersReadBack(m, f);
    NumberReadBack(Some(Int(page)));
  }

  // ---------------------------------------------------------------------
  // Rows, sorting and selection, on values

  /** `rows.map(x => x.id)`. */
  function Ids(rows: seq<Influencer>): (ids: seq<string>)
    ensures |ids| == |rows| && forall k :: 0 <= k < |rows| ==> ids[k] == rows[k].id
  {
    seq(|rows|, k requires 0 <= k < |rows| => rows[k].id)
  }

  /** The `sorted` memo: the loaded rows, sorted again when a sort field is set. */
  function SortedRows(rows: seq<Influencer>, sortField: string, sortOrder: string): seq<Influencer> {
    if sortField == "" then rows else SortBy(rows, sortField, sortOrder)
  }

  lemma {:induction false} IdsInsert(t: seq<Influencer>, x: Influencer, key: string, order: string)
    ensures multiset(Ids(Insert(t, x, key, order))) == multiset(Ids(t)) + multiset{x.id}
    decreases |t|
  {
    if t == [] {
      assert Ids([x]) == [x.id];
    } else {
      var init, last := t[..|t| - 1], t[|t| - 1];
      assert Ids(t) == Ids(init) + [last.id];
      if Compare(last, x, key, order) > 0 {
        var a := Insert(init, x, key, order);
        IdsInsert(init, x, key, order);
        assert Ids(a + [last]) == Ids(a) + [last.id];
      } else {
        assert Ids(t + [x]) == Ids(t) + [x.id];
      }
    }
  }

  lemma {:induction false} IdsSortBy(s: seq<Influencer>, key: string, order: string)
    ensures multiset(Ids(SortBy(s, key, order))) == multiset(Ids(s))
    decreases |s|
  {
    if s != [] {
      var init, last := s[..|s| - 1], s[|s| - 1];
      var r := SortBy(init, key, order);
      IdsSortBy(init, key, order);
      IdsInsert(r, last, key, order);
      assert Ids(s)[..|s| - 1] == Ids(init);
      AppendLast(Ids(s), Ids(r), Ids(SortBy(s, key, order)));
    }
  }

  /**
   * The client sort shows the same rows, so the same ids with the same
   * multiplicities; in particular distinct ids stay distinct.
   */
  lemma SortedRowsIds(rows: seq<Influencer>, sortField: string, sortOrder: string)
    ensures multiset(Ids(SortedRows(rows, sortField, sortOrder))) == multiset(Ids(rows))
    ensures forall x :: x in Ids(SortedRows(rows, sortField, sortOrder)) <==> x in Ids(rows)
    ensures NoDup(Ids(rows)) ==> NoDup(Ids(SortedRows(rows, sortField, sortOrder)))
  {
    var shown := SortedRows(rows, sortField, sortOrder);
    if sortField != "" {
      IdsSortBy(rows, sortField, sortOrder);
    }
    forall x ensures x in Ids(shown) <==> x in Ids(rows) {
      assert x in Ids(shown) <==> x in multiset(Ids(shown));
      assert x in Ids(rows) <==> x in multiset(Ids(rows));
    }
    if NoDup(Ids(rows)) {
      NoDupPermutation(Ids(rows), Ids(shown));
    }
  }

  /** `allSelected`: some rows are shown and as many ids are selected as rows shown. */
  predicate AllSelectedOf(shown: seq<Influencer>, selected: seq<string>) {
    |shown| > 0 && |selected| == |shown|
  }

  /**
   * With distinct row ids and a duplicate-free selection drawn from them,
   * the length test means what the button says: every shown row is
   * selected.
   */
  lemma AllSelectedIff(shown: seq<Influencer>, selected: seq<string>)
    requires NoDup(Ids(shown)) && NoDup(selected)
    requires forall x :: x in selected ==> x in Ids(shown)
    ensures AllSelectedOf(shown, selected) <==>
      |shown| > 0 && forall x :: x in Ids(shown) ==> x in selected
  {
    if |selected| == |shown| {
      SameLengthSubsetIsEqual(selected, Ids(shown));
    }
    if forall x :: x in Ids(shown) ==> x in selected {
      DistinctCardinality(selected);
      DistinctCardinality(Ids(shown));
      assert (set x | x in selected) == (set x | x in Ids(shown));
    }
  }

  /**
   * In mock mode the rows arrive already sorted by the same field and
   * order, so the client sort leaves their order as it is.
   */
  lemma ClientSortKeepsMockOrder(f: Filters, page: int, sortField: string, sortOrder: string)
    ensures var rows := Query(MockItems, ParamsOf(f, page, sortField, sortOrder)).items;
      SortedRows(rows, sortField, sortOrder) == rows
  {
    var p := ParamsOf(f, page, sortField, sortOrder);
    if sortField != "" {
      var arranged := Arrange(FilterItems(MockItems, f), p);
      ArrangeSpec(FilterItems(MockItems, f), p);
      var rows := Query(MockItems, p).items;
      SliceSorted(arranged, PageStart(p), PageStart(p) + PageSizeOf(p), sortField, sortOrder);
      SortByOfSorted(rows, sortField, sortOrder);
    }
  }

  /** A slice of a sorted list is sorted. */
  lemma SliceSorted(s: seq<Influencer>, start: int, end: int, key: string, order: string)
    requires SortedBy(s, key, order)
    ensures SortedBy(Slice(s, start, end), key, order)
  {
    var b, e := RelativeIndex(start, |s|), RelativeIndex(end, |s|);
    if b < e {
      var r := s[b..e];
      forall i, j | 0 <= i < j < |r| ensures Compare(r[i], r[j], key, order) <= 0 {
        assert r[i] == s[b + i] && r[j] == s[b + j];
      }
    }
  }

  // ---------------------------------------------------------------------
  // Sort header clicks

  /**
   * `toggleSort(key)`: a new column sorts descending; the current column
   * flips between ascending and descending (anything but 'asc' counts as
   * descending).
   */
  function NextSort(sortField: string, sortOrder: string, key: string): (r: (string, string))
    ensures r.0 == key
    ensures sortField != key ==> r.1 == "desc"
    ensures sortField == key ==> (r.1 == "asc" <==> sortOrder != "asc")
    ensures r.1 == "asc" || r.1 == "desc"
  {
    if sortField != key then (key, "desc")
    else (key, if sortOrder == "asc" then "desc" else "asc")
  }

  /**
   * Clicking one header twice: from another column the order ends
   * ascending; on the same column an 'asc' or 'desc' order comes back.
   */
  lemma NextSortTwice(sortField: string, sortOrder: string, key: string)
    ensures var (f1, o1) := NextSort(sortField, sortOrder, key);
      && (sortField != key ==> NextSort(f1, o1, key) == (key, "asc"))
      && (sortField == key && (sortOrder == "asc" || sortOrder == "desc") ==>
            NextSort(f1, o1, key) == (sortField, sortOrder))
  {
  }

  // ---------------------------------------------------------------------
  // The page's state

  class DiscoverPageState {
    var filters: Filters
    var page: int
    var sortField: string
    var sortOrder: string
    var selectedIds: seq<string>
    var watchlist: seq<string>
    var items: seq<Influencer>
    var total: int
    var status: Status
    var error: string
    var modalOpen: bool

    /** The rows on screen: the `sorted` memo. */
    function Shown(): seq<Influencer>
      reads this
    {
      SortedRows(items, sortField, sortOrder)
    }

    /** The load effect's parameter record for the current state. */
    function RequestParams(): DiscoverQuery.Params
      reads this
    {
      ParamsOf(filters, page, sortField, sortOrder)
    }

    /**
     * The selection only holds ids of loaded rows, and has no duplicates
     * when the rows' ids have none.
     */
    predicate Valid()
      reads this
    {
      && (forall x :: x in selectedIds ==> x in Ids(items))
      && (NoDup(Ids(items)) ==> NoDup(selectedIds))
    }

    /** `allSelected`. */
    predicate AllSelected()
      reads this
    {
      AllSelectedOf(Shown(), selectedIds)
    }

    /**
     * The first render: the state read from the decoded address bar `init`
     * and the stored watch list; nothing loaded, nothing selected, the
     * dialog closed.
     */
    constructor (init: map<string, string>, store: Storage.WatchlistStore)
      ensures filters == FiltersFromQuery(init)
      ensures page == PageFromQuery(init)
      ensures sortField == SortFieldFromQuery(init)
      ensures sortOrder == SortOrderFromQuery(init)
      ensures watchlist == Storage.StoredIds(store.entry)
      ensures selectedIds == [] && items == [] && total == 0
      ensures status == Idle && error == "" && !modalOpen
      ensures Valid()
    {
      var w := store.GetWatchlist();
      filters := FiltersFromQuery(init);
      page := PageFromQuery(init);
      sortField := SortFieldFromQuery(init);
      sortOrder := SortOrderFromQuery(init);
      selectedIds := [];
      watchlist := w;
      items := [];
      total := 0;
      status := Idle;
      error := "";
      modalOpen := false;
    }

    /**
     * The query string the load effect writes to the address bar: the
     * parameter record without its empty entries; read back as the page
     * reads its initial state, it gives the normalised filters, the page
     * (0 becomes 1), the sort field, and the sort order when a field is set.
     */
    method QueryString() returns (url: Url.Pairs)
      ensures url == Url.Retained(ParamEntries(RequestParams()))
      ensures var m := Url.Decode(url);
        && FiltersFromQuery(m) == Normalized(filters)
        && PageFromQuery(m) == (if page == 0 then 1 else page)
        && SortFieldFromQuery(m) == sortField
        && (sortField != "" ==> SortOrderFromQuery(m) == (if sortOrder != "" then sortOrder else "desc"))
    {
      var params := ParamsOf(filters, page, sortField, sortOrder);
      url := Url.ToQueryString(ParamEntries(params));
      UrlRoundTrip(filters, page, sortField, sortOrder);
    }

    /**
     * The load effect's synchronous part: the status becomes loading, the
     * error is cleared, and the state's query string is handed to the
     * address bar.
     */
    method BeginLoad() returns (url: Url.Pairs)
      modifies this
      ensures status == Loading && error == ""
      ensures url == Url.Retained(ParamEntries(RequestParams()))
      ensures filters == old(filters) && page == old(page) && items == old(items)
      ensures sortField == old(sortField) && sortOrder == old(sortOrder) && total == old(total)
      ensures selectedIds == old(selectedIds) && watchlist == old(watchlist) && modalOpen == old(modalOpen)
    {
      status := Loading;
      error := "";
      url := QueryString();
    }

    /**
     * The load effect's request settling. `fetchInfluencers` never rejects,
     * so its `.then` runs with the body it served (`response` is what the
     * network would answer). For an object the rows are its items, the
     * total falls back to the number of rows, the selection is cleared and
     * the status is success. For a remote JSON `null`, `data.items` throws
     * inside `.then`, and `.catch` sets the status to error with the
     * TypeError's message, changing nothing else.
     */
    method FinishLoad(cfg: Config, response: HttpResponse)
      modifies this
      ensures var served := FetchInfluencers(cfg, old(RequestParams()), response);
        && (served.body.Body? ==>
              && items == served.body.items.GetOr([])
              && total == served.body.total.GetOr(|items|)
              && status == Success && selectedIds == [] && error == old(error))
        && (served.body.NullBody? ==>
              && status == Error && error == NullItemsMessage
              && items == old(items) && total == old(total) && selectedIds == old(selectedIds))
      ensures filters == old(filters) && page == old(page)
      ensures sortField == old(sortField) && sortOrder == old(sortOrder)
      ensures watchlist == old(watchlist) && modalOpen == old(modalOpen)
      ensures status == Success ==> Valid()
      ensures old(Valid()) ==> Valid()
    {
      var data := FetchInfluencers(cfg, ParamsOf(filters, page, sortField, sortOrder), response);
      if data.body.NullBody? {
        status := Error;
        error := NullItemsMessage;
      } else {
        items := data.body.items.GetOr([]);
        total := data.body.total.GetOr(|items|);
        status := Success;
        selectedIds := [];
      }
    }

    /** A header click on column `key`. */
    method ToggleSort(key: string)
      modifies this
      ensures (sortField, sortOrder) == NextSort(old(sortField), old(sortOrder), key)
      ensures filters == old(filters) && page == old(page) && items == old(items)
      ensures selectedIds == old(selectedIds) && total == old(total)
      ensures watchlist == old(watchlist) && status == old(status) && modalOpen == old(modalOpen)
      ensures error == old(error)
      ensures old(Valid()) ==> Valid()
    {
      if sortField != key {
        sortField := key;
        sortOrder := "desc";
      } else {
        sortOrder := if sortOrder == "asc" then "desc" else "asc";
      }
    }

    /** The select-all button: clears a full selection, else selects every shown row. */
    method ToggleSelectAll()
      modifies this
      ensures selectedIds == if old(AllSelected()) then [] else Ids(old(Shown()))
      ensures filters == old(filters) && page == old(page) && items == old(items)
      ensures sortField == old(sortField) && sortOrder == old(sortOrder) && total == old(total)
      ensures watchlist == old(watchlist) && status == old(status) && modalOpen == old(modalOpen)
      ensures error == old(error)
      ensures Valid()
    {
      SortedRowsIds(items, sortField, sortOrder);
      if |Shown()| > 0 && |selectedIds| == |Shown()| {
        selectedIds := [];
      } else {
        selectedIds := Ids(Shown());
      }
    }

    /** A row's checkbox: the row's id leaves the selection if present, else joins it at the end. */
    method ToggleSelectOne(id: string)
      modifies this
      ensures selectedIds == Storage.Toggled(old(selectedIds), id)
      ensures id in selectedIds <==> id !in old(selectedIds)
      ensures forall x :: x != id ==> (x in selectedIds <==> x in old(selectedIds))
      ensures filters == old(filters) && page == old(page) && items == old(items)
      ensures sortField == old(sortField) && sortOrder == old(sortOrder) && total == old(total)
      ensures watchlist == old(watchlist) && status == old(status) && modalOpen == old(modalOpen)
      ensures error == old(error)
      ensures old(Valid()) && id in Ids(old(Shown())) ==> Valid()
    {
      SortedRowsIds(items, sortField, sortOrder);
      Storage.ToggledMembership(selectedIds, id);
      if NoDup(selectedIds) {
        Storage.ToggledShape(selectedIds, id);
      }
      if id in selectedIds {
        selectedIds := RemoveAll(selectedIds, id);
      } else {
        selectedIds := selectedIds + [id];
      }
    }

    /** The watch-later button: toggles `id` in storage and shows the stored list. */
    method ToggleWatchAndSync(store: Storage.WatchlistStore, id: string)
      modifies this, store
      ensures watchlist == Storage.StoredIds(store.entry)
      ensures watchlist == Storage.Toggled(Storage.Dedupe(Storage.StoredIds(old(store.entry))), id)
      ensures store.entry == Storage.Written(watchlist)
      ensures id in watchlist <==> id !in Storage.StoredIds(old(store.entry))
      ensures forall x :: x != id ==> (x in watchlist <==> x in Storage.StoredIds(old(store.entry)))
      ensures NoDup(watchlist)
      ensures filters == old(filters) && page == old(page) && items == old(items)
      ensures sortField == old(sortField) && sortOrder == old(sortOrder) && total == old(total)
      ensures selectedIds == old(selectedIds) && status == old(status) && modalOpen == old(modalOpen)
      ensures error == old(error)
    {
      var next := store.ToggleWatch(id);
      watchlist := next;
    }

    /** Pagination's `onChange(next)`. */
    method ChangePage(next: int)
      modifies this
      ensures page == next
      ensures filters == old(filters) && items == old(items) && selectedIds == old(selectedIds)
      ensures sortField == old(sortField) && sortOrder == old(sortOrder) && total == old(total)
      ensures watchlist == old(watchlist) && status == old(status) && modalOpen == old(modalOpen)
      ensures error == old(error)
    {
      page := next;
    }

    /** The filter dialog's `onApply(next)`: back to page 1 with the new filters. */
    method ApplyFilters(next: Filters)
      modifies this
      ensures filters == next && page == 1
      ensures items == old(items) && selectedIds == old(selectedIds)
      ensures sortField == old(sortField) && sortOrder == old(sortOrder) && total == old(total)
      ensures watchlist == old(watchlist) && status == old(status) && modalOpen == old(modalOpen)
      ensures error == old(error)
    {
      page := 1;
      filters := next;
    }

    /** The advanced-filter button and the dialog's `onClose`. */
    method SetModalOpen(open: bool)
      modifies this
      ensures modalOpen == open
      ensures filters == old(filters) && page == old(page) && items == old(items)
      ensures selectedIds == old(selectedIds) && total == old(total)
      ensures sortField == old(sortField) && sortOrder == old(sortOrder)
      ensures watchlist == old(watchlist) && status == old(status)
      ensures error == old(error)
    {
      modalOpen := open;
    }
  }
}

=== FILE: discover_query.dfy ===
/**
 * src/app/discover/page.tsx, the data side: the influencer record, the
 * five mock records, `mockQuery` (filter, then sort, then page), the remote
 * request and `fetchInfluencers`, which picks mock or remote data.
 */
module DiscoverQuery {
  import opened JsRuntime
  import opened SeqFacts
  import opened FilterModal
  import Url
  import Pagination

  /** `Influencer`. */
  datatype Influencer = Influencer(
    id: string,
    handle: string,
    followers: int,
    avgFeedLike: int,
    realEngagement: int,
    ageRange: string,
    gender: Option<string>,
    isVerified: Option<bool>)

  /** `MOCK_ITEMS`. */
  const MockItems: seq<Influencer> := [
    Influencer("1", "@instagram", 694391240, 3000000, 283311625, "18-24", Some("mixed"), Some(true)),
    Influencer("2", "@cristiano", 663491330, 2500000, 175070524, "18-24", Some("male"), Some(true)),
    Influencer("3", "@leomessi", 506278633, 2000000, 139724247, "18-24", Some("male"), Some(true)),
    Influencer("4", "@selenagomez", 417656566, 1500000, 205487030, "18-24", Some("female"), Some(true)),
    Influencer("5", "@kyliejenner", 392960306, 1400000, 174474375, "25-34", Some("female"), Some(true))
  ]

  /**
   * The parameter record the page hands to `fetchInfluencers`: the filters
   * spread out, then `page`, `pageSize`, `sortField` and `sortOrder`.
   */
  datatype Params = Params(
    filters: Filters,
    page: Option<int>,
    pageSize: Option<int>,
    sortField: Option<string>,
    sortOrder: Option<string>)

  /** What `mockQuery` returns. */
  datatype QueryResult = QueryResult(items: seq<Influencer>, total: int)

  // ---------------------------------------------------------------------
  // Filtering

  /** A string-valued option that JavaScript treats as true. */
  predicate Truthy(v: Option<string>) {
    v.Some? && v.value != ""
  }

  /** The filter callback of `mockQuery`, one early `return false` per test. */
  predicate Matches(it: Influencer, f: Filters) {
    if f.minFollower.Some? && LessThan(it.followers, f.minFollower.value) then false
    else if f.maxFollower.Some? && GreaterThan(it.followers, f.maxFollower.value) then false
    else if f.minAvgFeedLike.Some? && LessThan(it.avgFeedLike, f.minAvgFeedLike.value) then false
    else if f.maxAvgFeedLike.Some? && GreaterThan(it.avgFeedLike, f.maxAvgFeedLike.value) then false
    else if f.minRealEngagement.Some? && LessThan(it.realEngagement, f.minRealEngagement.value) then false
    else if f.maxRealEngagement.Some? && GreaterThan(it.realEngagement, f.maxRealEngagement.value) then false
    else if Truthy(f.ageRange) && it.ageRange != f.ageRange.value then false
    else if f.isVerified.Some? && (it.isVerified == Some(true)) != f.isVerified.value then false
    else if Truthy(f.gender) && it.gender != f.gender then false
    else true
  }

  /** `x` lies within the bounds that are present and are numbers, inclusively. */
  predicate InBounds(x: int, lo: Option<Num>, hi: Option<Num>) {
    (lo.Some? && lo.value.Int? ==> lo.value.value <= x) &&
    (hi.Some? && hi.value.Int? ==> x <= hi.value.value)
  }

  /**
   * A record survives the filter exactly when each present numeric bound
   * holds inclusively (a NaN bound constrains nothing), a non-empty age
   * range or gender matches exactly, and a present verified flag agrees
   * with the record's, read as booleans.
   */
  lemma MatchesIff(it: Influencer, f: Filters)
    ensures Matches(it, f) <==>
      && InBounds(it.followers, f.minFollower, f.maxFollower)
      && InBounds(it.avgFeedLike, f.minAvgFeedLike, f.maxAvgFeedLike)
      && InBounds(it.realEngagement, f.minRealEngagement, f.maxRealEngagement)
      && (f.ageRange.Some? && f.ageRange.value != "" ==> it.ageRange == f.ageRange.value)
      && (f.isVerified.Some? ==> (it.isVerified == Some(true) <==> f.isVerified.value))
      && (f.gender.Some? && f.gender.value != "" ==> it.gender == f.gender)
  {
  }

  /** `arr.filter(...)`. */
  function FilterItems(s: seq<Influencer>, f: Filters): (r: seq<Influencer>)
    ensures |r| <= |s|
    decreases |s|
  {
    if s == [] then []
    else FilterItems(s[..|s| - 1], f) + (if Matches(s[|s| - 1], f) then [s[|s| - 1]] else [])
  }

  /** The filter keeps exactly the records that pass. */
  lemma {:induction false} FilterMembership(s: seq<Influencer>, f: Filters)
    ensures forall x :: x in FilterItems(s, f) <==> x in s && Matches(x, f)
    decreases |s|
  {
    if s != [] {
      var init, last := s[..|s| - 1], s[|s| - 1];
      FilterMembership(init, f);
      assert s == init + [last];
    }
  }

  /** The filtered records keep their original relative order. */
  lemma {:induction false} FilterIsSubsequence(s: seq<Influencer>, f: Filters)
    ensures SubsequenceOf(FilterItems(s, f), s)
    decreases |s|
  {
    if s != [] {
      var init, last := s[..|s| - 1], s[|s| - 1];
      FilterIsSubsequence(init, f);
      var fi := FilterItems(init, f);
      assert s == init + [last];
      if Matches(last, f) {
        assert (fi + [last])[..|fi|] == fi;
      } else {
        assert FilterItems(s, f) == fi;
        SubsequenceExtend(fi, init, last);
      }
    }
  }

  /** When no record passes, the filter returns nothing. */
  lemma {:induction false} FilterNone(s: seq<Influencer>, f: Filters)
    requires forall x :: x in s ==> !Matches(x, f)
    ensures FilterItems(s, f) == []
    decreases |s|
  {
    if s != [] {
      FilterNone(s[..|s| - 1], f);
    }
  }

  /** When every record passes, the filter returns the list unchanged. */
  lemma {:induction false} FilterAll(s: seq<Influencer>, f: Filters)
    requires forall x :: x in s ==> Matches(x, f)
    ensures FilterItems(s, f) == s
    decreases |s|
  {
    if s != [] {
      FilterAll(s[..|s| - 1], f);
      assert s[..|s| - 1] + [s[|s| - 1]] == s;
    }
  }

  /** Filtering one more record at the end appends it when it passes. */
  lemma FilterSnoc(s: seq<Influencer>, x: Influencer, f: Filters)
    ensures FilterItems(s + [x], f) == FilterItems(s, f) + (if Matches(x, f) then [x] else [])
  {
    assert (s + [x])[..|s|] == s;
  }

  /**
   * A minimum above its maximum, for any of the three ranges, filters out
   * every record; no error is raised.
   */
  lemma EmptyRangeMatchesNothing(f: Filters, it: Influencer)
    requires
      || (f.minFollower.Some? && f.maxFollower.Some? && f.minFollower.value.Int? && f.maxFollower.value.Int?
          && f.minFollower.value.value > f.maxFollower.value.value)
      || (f.minAvgFeedLike.Some? && f.maxAvgFeedLike.Some? && f.minAvgFeedLike.value.Int? && f.maxAvgFeedLike.value.Int?
          && f.minAvgFeedLike.value.value > f.maxAvgFeedLike.value.value)
      || (f.minRealEngagement.Some? && f.maxRealEngagement.Some? && f.minRealEngagement.value.Int? && f.maxRealEngagement.value.Int?
          && f.minRealEngagement.value.value > f.maxRealEngagement.value.value)
    ensures !Matches(it, f)
    ensures FilterItems(MockItems, f) == []
  {
    MatchesIff(it, f);
    forall x | x in MockItems ensures !Matches(x, f) {
      MatchesIff(x, f);
    }
    FilterNone(MockItems, f);
  }

  // ---------------------------------------------------------------------
  // The comparator

  /** The value of `a[key]`: a number, a string, a boolean or undefined. */
  datatype FieldValue = NumV(n: int) | StrV(s: string) | BoolV(b: bool) | Undef

  /** `it[key]` for any key; keys the record lacks read as undefined. */
  function FieldOf(it: Influencer, key: string): FieldValue {
    if key == "id" then StrV(it.id)
    else if key == "handle" then StrV(it.handle)
    else if key == "followers" then NumV(it.followers)
    else if key == "avg_feed_like" then NumV(it.avgFeedLike)
    else if key == "real_engagement" then NumV(it.realEngagement)
    else if key == "main_audience_age_range" then StrV(it.ageRange)
    else if key == "main_audience_gender" then (if it.gender.Some? then StrV(it.gender.value) else Undef)
    else if key == "is_verified" then (if it.isVerified.Some? then BoolV(it.isVerified.value) else Undef)
    else Undef
  }

  /** The keys whose values are numbers. */
  predicate IsNumericKey(key: string) {
    key == "followers" || key == "avg_feed_like" || key == "real_engagement"
  }

  /** `String(v)`: the same conversion the address bar applies to a value. */
  function Show(v: FieldValue): string {
    Url.StringOf(
      match v
      case NumV(n) => Url.Number(Int(n))
      case StrV(s) => Url.Str(s)
      case BoolV(b) => Url.Bool(b)
      case Undef => Url.Undefined)
  }

  /** The comparator passed to `arr.sort`; any order other than 'asc' sorts descending. */
  function Compare(a: Influencer, b: Influencer, key: string, order: string): int {
    var va, vb := FieldOf(a, key), FieldOf(b, key);
    if va == vb then 0
    else if va.NumV? && vb.NumV? then
      (if order == "asc" then va.n - vb.n else vb.n - va.n)
    else if order == "asc" then StrCompare(Show(va), Show(vb))
    else StrCompare(Show(vb), Show(va))
  }

  /**
   * On a numeric key the comparator is the difference of the two values; on
   * any other key it compares their strings. Descending swaps the operands.
   */
  lemma CompareByKind(a: Influencer, b: Influencer, key: string, order: string)
    ensures IsNumericKey(key) ==> (Compare(a, b, key, order) ==
      if order == "asc" then FieldOf(a, key).n - FieldOf(b, key).n else FieldOf(b, key).n - FieldOf(a, key).n)
    ensures !IsNumericKey(key) ==> (Compare(a, b, key, order) ==
      if order == "asc" then StrCompare(Show(FieldOf(a, key)), Show(FieldOf(b, key)))
      else StrCompare(Show(FieldOf(b, key)), Show(FieldOf(a, key))))
  {
  }

  /** Swapping the records flips the sign of the comparison. */
  lemma CompareFlip(a: Influencer, b: Influencer, key: string, order: string)
    ensures Compare(a, b, key, order) > 0 <==> Compare(b, a, key, order) < 0
    ensures Compare(a, b, key, order) == 0 <==> Compare(b, a, key, order) == 0
  {
    CompareByKind(a, b, key, order);
    CompareByKind(b, a, key, order);
    StrCompareFlip(Show(FieldOf(a, key)), Show(FieldOf(b, key)));
  }

  /** "Sorts no later than" is transitive. */
  lemma CompareTrans(a: Influencer, b: Influencer, c: Influencer, key: string, order: string)
    ensures Compare(a, b, key, order) <= 0 && Compare(b, c, key, order) <= 0 ==> Compare(a, c, key, order) <= 0
  {
    CompareByKind(a, b, key, order);
    CompareByKind(b, c, key, order);
    CompareByKind(a, c, key, order);
    var sa, sb, sc := Show(FieldOf(a, key)), Show(FieldOf(b, key)), Show(FieldOf(c, key));
    if !IsNumericKey(key) && Compare(a, b, key, order) <= 0 && Compare(b, c, key, order) <= 0 {
      if order == "asc" {
        StrCompareTrans(sa, sb, sc);
      } else {
        StrCompareTrans(sc, sb, sa);
      }
    }
  }

  /** A record that sorts after `x` is not tied with anything tied with `x`. */
  lemma AfterIsNotTied(a: Influencer, x: Influencer, y: Influencer, key: string, order: string)
    requires Compare(a, x, key, order) > 0
    ensures !(Compare(a, y, key, order) == 0 && Compare(x, y, key, order) == 0)
  {
    CompareFlip(x, y, key, order);
    CompareTrans(a, y, x, key, order);
  }

  // ---------------------------------------------------------------------
  // Stable sorting

  /** Every earlier record sorts no later than every later one. */
  predicate SortedBy(s: seq<Influencer>, key: string, order: string) {
    forall i, j {:trigger Compare(s[i], s[j], key, order)} :: 0 <= i < j < |s| ==> Compare(s[i], s[j], key, order) <= 0
  }

  /** The records of `s` tied with `y` under the comparator, in their order in `s`. */
  function TiedWith(s: seq<Influencer>, y: Influencer, key: string, order: string): seq<Influencer>
    decreases |s|
  {
    if s == [] then []
    else
      TiedWith(s[..|s| - 1], y, key, order)
      + (if Compare(s[|s| - 1], y, key, order) == 0 then [s[|s| - 1]] else [])
  }

  /**
   * `x` placed into `t` after every record that does not sort after it; the
   * step of a stable insertion sort.
   */
  function Insert(t: seq<Influencer>, x: Influencer, key: string, order: string): seq<Influencer>
    decreases |t|
  {
    if t == [] then [x]
    else if Compare(t[|t| - 1], x, key, order) > 0 then Insert(t[..|t| - 1], x, key, order) + [t[|t| - 1]]
    else t + [x]
  }

  /**
   * The order `arr.sort(comparator)` produces: ES2019 requires a stable
   * sort, and with a consistent comparator the stable order is this one.
   */
  function SortBy(s: seq<Influencer>, key: string, order: string): seq<Influencer>
    decreases |s|
  {
    if s == [] then [] else Insert(SortBy(s[..|s| - 1], key, order), s[|s| - 1], key, order)
  }

  lemma {:induction false} InsertPermutes(t: seq<Influencer>, x: Influencer, key: string, order: string)
    ensures multiset(Insert(t, x, key, order)) == multiset(t) + multiset{x}
    decreases |t|
  {
    if t != [] && Compare(t[|t| - 1], x, key, order) > 0 {
      InsertPermutes(t[..|t| - 1], x, key, order);
      assert t == t[..|t| - 1] + [t[|t| - 1]];
    }
  }

  lemma {:induction false} InsertSorted(t: seq<Influencer>, x: Influencer, key: string, order: string)
    requires SortedBy(t, key, order)
    ensures SortedBy(Insert(t, x, key, order), key, order)
    decreases |t|
  {
    if t != [] {
      var init, last := t[..|t| - 1], t[|t| - 1];
      SortedPrefix(t, key, order);
      if Compare(last, x, key, order) > 0 {
        InsertSorted(init, x, key, order);
        var a := Insert(init, x, key, order);
        InsertPermutes(init, x, key, order);
        forall y | y in a ensures Compare(y, last, key, order) <= 0 {
          InPermutation(a, init, x, y);
          if y == x {
            CompareFlip(last, x, key, order);
          } else {
            var k :| 0 <= k < |init| && init[k] == y;
            assert Compare(t[k], t[|t| - 1], key, order) <= 0;
          }
        }
        SortedSnoc(a, last, key, order);
      } else {
        forall y | y in t ensures Compare(y, x, key, order) <= 0 {
          var k :| 0 <= k < |t| && t[k] == y;
          if k < |t| - 1 {
            assert Compare(t[k], t[|t| - 1], key, order) <= 0;
            CompareTrans(t[k], last, x, key, order);
          }
        }
        SortedSnoc(t, x, key, order);
      }
    }
  }

  /** A sorted list stays sorted when a record that sorts after all of it is appended. */
  lemma SortedSnoc(a: seq<Influencer>, y: Influencer, key: string, order: string)
    requires SortedBy(a, key, order)
    requires forall z :: z in a ==> Compare(z, y, key, order) <= 0
    ensures SortedBy(a + [y], key, order)
  {
    var r := a + [y];
    forall i, j | 0 <= i < j < |r| ensures Compare(r[i], r[j], key, order) <= 0 {
      assert r[i] == a[i];
      if j < |a| {
        assert r[j] == a[j];
        assert Compare(a[i], a[j], key, order) <= 0;
      } else {
        assert r[j] == y && a[i] in a;
      }
    }
  }

  /** Inserting `x` adds it to its tie group after the group's other members. */
  lemma {:induction false} InsertTies(t: seq<Influencer>, x: Influencer, y: Influencer, key: string, order: string)
    ensures TiedWith(Insert(t, x, key, order), y, key, order)
      == TiedWith(t, y, key, order) + (if Compare(x, y, key, order) == 0 then [x] else [])
    decreases |t|
  {
    if t == [] {
      assert Insert(t, x, key, order) == [x];
      assert [x][..0] == [];
    } else {
      var init, last := t[..|t| - 1], t[|t| - 1];
      if Compare(last, x, key, order) > 0 {
        var a := Insert(init, x, key, order);
        InsertTies(init, x, y, key, order);
        assert (a + [last])[..|a|] == a;
        AfterIsNotTied(last, x, y, key, order);
      } else {
        assert (t + [x])[..|t|] == t;
      }
    }
  }

  /** Sorting permutes the records. */
  lemma {:induction false} SortByPermutes(s: seq<Influencer>, key: string, order: string)
    ensures multiset(SortBy(s, key, order)) == multiset(s)
    ensures |SortBy(s, key, order)| == |s|
    decreases |s|
  {
    if s != [] {
      var init, last := s[..|s| - 1], s[|s| - 1];
      var r := SortBy(init, key, order);
      SortByPermutes(init, key, order);
      InsertPermutes(r, last, key, order);
      AppendLast(s, r, SortBy(s, key, order));
    }
    assert |multiset(SortBy(s, key, order))| == |SortBy(s, key, order)|;
  }

  /** The sorted records are in comparator order. */
  lemma {:induction false} SortBySorted(s: seq<Influencer>, key: string, order: string)
    ensures SortedBy(SortBy(s, key, order), key, order)
    decreases |s|
  {
    if s != [] {
      SortBySorted(s[..|s| - 1], key, order);
      InsertSorted(SortBy(s[..|s| - 1], key, order), s[|s| - 1], key, order);
    }
  }

  /**
   * The sort is stable: the records tied with any `y` appear in the output
   * in exactly their input order, whichever the direction.
   */
  lemma {:induction false} SortByStable(s: seq<Influencer>, y: Influencer, key: string, order: string)
    ensures TiedWith(SortBy(s, key, order), y, key, order) == TiedWith(s, y, key, order)
    decreases |s|
  {
    if s != [] {
      SortByStable(s[..|s| - 1], y, key, order);
      InsertTies(SortBy(s[..|s| - 1], key, order), s[|s| - 1], y, key, order);
    }
  }

  /**
   * On a numeric key, 'asc' leaves the values non-decreasing and any other
   * order leaves them non-increasing.
   */
  lemma SortedNumericKey(s: seq<Influencer>, key: string, order: string, i: nat, j: nat)
    requires IsNumericKey(key) && SortedBy(s, key, order) && i < j < |s|
    ensures order == "asc" ==> FieldOf(s[i], key).n <= FieldOf(s[j], key).n
    ensures order != "asc" ==> FieldOf(s[i], key).n >= FieldOf(s[j], key).n
  {
    CompareByKind(s[i], s[j], key, order);
  }

  /** A record already sorted is left where it is, so a sorted list is its own sort. */
  lemma {:induction false} SortByOfSorted(s: seq<Influencer>, key: string, order: string)
    requires SortedBy(s, key, order)
    ensures SortBy(s, key, order) == s
    decreases |s|
  {
    if s != [] {
      var init, last := s[..|s| - 1], s[|s| - 1];
      SortedPrefix(s, key, order);
      SortByOfSorted(init, key, order);
      if |init| > 0 {
        assert init[|init| - 1] == s[|s| - 2];
        assert Compare(s[|s| - 2], s[|s| - 1], key, order) <= 0;
      }
      assert Insert(init, last, key, order) == init + [last];
      assert init + [last] == s;
    }
  }

  /** Dropping the last record keeps a list sorted. */
  lemma SortedPrefix(s: seq<Influencer>, key: string, order: string)
    requires s != [] && SortedBy(s, key, order)
    ensures SortedBy(s[..|s| - 1], key, order)
  {
    var init := s[..|s| - 1];
    forall i, j | 0 <= i < j < |init| ensures Compare(init[i], init[j], key, order) <= 0 {
      assert init[i] == s[i] && init[j] == s[j];
      assert Compare(s[i], s[j], key, order) <= 0;
    }
  }

  /** `s` back to front. */
  function Reverse(s: seq<Influencer>): (r: seq<Influencer>)
    ensures |r| == |s| && forall k :: 0 <= k < |s| ==> r[k] == s[|s| - 1 - k]
    decreases |s|
  {
    if s == [] then [] else [s[|s| - 1]] + Reverse(s[..|s| - 1])
  }

  /** A record that sorts before everything in `t` is inserted at the front. */
  lemma {:induction false} InsertFront(t: seq<Influencer>, x: Influencer, key: string, order: string)
    requires forall k {:trigger Compare(t[k], x, key, order)} :: 0 <= k < |t| ==> Compare(t[k], x, key, order) > 0
    ensures Insert(t, x, key, order) == [x] + t
    decreases |t|
  {
    if t != [] {
      var init := t[..|t| - 1];
      InsertFront(init, x, key, order);
      assert [x] + init + [t[|t| - 1]] == [x] + t;
    }
  }

  /** Records in strictly the opposite order come out reversed. */
  lemma {:induction false} SortByReversed(s: seq<Influencer>, key: string, order: string)
    requires forall i, j {:trigger Compare(s[i], s[j], key, order)} :: 0 <= i < j < |s| ==> Compare(s[i], s[j], key, order) > 0
    ensures SortBy(s, key, order) == Reverse(s)
    decreases |s|
  {
    if s != [] {
      var init, last := s[..|s| - 1], s[|s| - 1];
      SortByReversed(init, key, order);
      InsertFront(Reverse(init), last, key, order);
    }
  }

  /**
   * When `t[..j]` ends with a record that does not sort after `x` and every
   * record of `t[j..]` does, `x` goes in at index `j`.
   */
  lemma InsertAfterRun(t: seq<Influencer>, j: nat, x: Influencer, key: string, order: string)
    requires j <= |t| && (j == 0 || Compare(t[j - 1], x, key, order) <= 0)
    requires forall k {:trigger Compare(t[k], x, key, order)} :: j <= k < |t| ==> Compare(t[k], x, key, order) > 0
    ensures Insert(t, x, key, order) == t[..j] + [x] + t[j..]
  {
    InsertSuffix(t, j, x, key, order);
    assert t[..j][..j] == t[..j];
    if j > 0 {
      assert t[..j][j - 1] == t[j - 1];
      assert t[..j][..j - 1] == t[..j - 1];
    }
  }

  /** Records at the end of `t` that all sort after `x` stay after it. */
  lemma {:induction false} InsertSuffix(t: seq<Influencer>, j: nat, x: Influencer, key: string, order: string)
    requires j <= |t|
    requires forall k {:trigger Compare(t[k], x, key, order)} :: j <= k < |t| ==> Compare(t[k], x, key, order) > 0
    ensures Insert(t, x, key, order) == Insert(t[..j], x, key, order) + t[j..]
    decreases |t| - j
  {
    if j == |t| {
      assert t[..j] == t && t[j..] == [];
    } else {
      InsertSuffix(t, j + 1, x, key, order);
      InsertSuffixStep(t, j, x, key, order);
    }
  }

  /** One record of the run: `t[j]` sorts after `x`, so it stays behind it. */
  lemma InsertSuffixStep(t: seq<Influencer>, j: nat, x: Influencer, key: string, order: string)
    requires j < |t| && Compare(t[j], x, key, order) > 0
    requires Insert(t, x, key, order) == Insert(t[..j + 1], x, key, order) + t[j + 1..]
    ensures Insert(t, x, key, order) == Insert(t[..j], x, key, order) + t[j..]
  {
    var v := t[..j + 1];
    assert v[..j] == t[..j] && v[j] == t[j];
    assert Insert(v, x, key, order) == Insert(t[..j], x, key, order) + [t[j]];
    ConsSuffix(t, j, Insert(t[..j], x, key, order), Insert(v, x, key, order));
  }

  /** Sorting one more record inserts it into the sorted prefix. */
  lemma SortByPrefix(s: seq<Influencer>, i: nat, key: string, order: string)
    requires i < |s|
    ensures SortBy(s[..i + 1], key, order) == Insert(SortBy(s[..i], key, order), s[i], key, order)
  {
    assert s[..i + 1][..i] == s[..i];
  }

  /** `u` is `t` with `x` placed at index `j`. */
  lemma Spliced(u: seq<Influencer>, t: seq<Influencer>, j: nat, x: Influencer)
    requires j <= |t| && |u| == |t| + 1 && u[j] == x
    requires forall k :: 0 <= k < j ==> u[k] == t[k]
    requires forall k :: j < k <= |t| ==> u[k] == t[k - 1]
    ensures u == t[..j] + [x] + t[j..]
  {
  }

  /** `arr.sort(comparator)` on the copied array, as a stable insertion sort in place. */
  method SortInPlace(a: array<Influencer>, key: string, order: string)
    modifies a
    ensures a[..] == SortBy(old(a[..]), key, order)
  {
    ghost var s := a[..];
    var i := 0;
    while i < a.Length
      invariant 0 <= i <= a.Length
      invariant a[..i] == SortBy(s[..i], key, order)
      invariant forall k :: i <= k < a.Length ==> a[k] == s[k]
    {
      InsertInto(a, i, key, order);
      SortByPrefix(s, i, key, order);
      i := i + 1;
    }
    assert a[..] == a[..a.Length] && s == s[..a.Length];
  }

  /** One pass of the insertion sort: `a[i]` moves into the sorted run `a[..i]`. */
  method InsertInto(a: array<Influencer>, i: nat, key: string, order: string)
    requires i < a.Length
    modifies a
    ensures a[..i + 1] == Insert(old(a[..i]), old(a[i]), key, order)
    ensures forall k :: i < k < a.Length ==> a[k] == old(a[k])
  {
    var x := a[i];
    ghost var t := a[..i];
    var j := ShiftAfter(a, i, x, key, order);
    assert forall k :: 0 <= k < i ==> old(a[k]) == t[k];
    InsertAfterRun(t, j, x, key, order);
    a[j] := x;
    Spliced(a[..i + 1], t, j, x);
  }

  /**
   * The inner loop of a pass: the records of the sorted run `a[..i]` that
   * sort after `x` move up one slot, and `j` is the slot left for `x`.
   */
  method ShiftAfter(a: array<Influencer>, i: nat, x: Influencer, key: string, order: string) returns (j: nat)
    requires i < a.Length
    modifies a
    ensures j <= i && (j == 0 || Compare(old(a[j - 1]), x, key, order) <= 0)
    ensures forall k :: j <= k < i ==> Compare(old(a[k]), x, key, order) > 0
    ensures forall k :: 0 <= k < j ==> a[k] == old(a[k])
    ensures forall k :: j < k <= i ==> a[k] == old(a[k - 1])
    ensures forall k :: i < k < a.Length ==> a[k] == old(a[k])
  {
    j := i;
    while j > 0
      invariant 0 <= j <= i
      invariant forall k :: 0 <= k < j ==> a[k] == old(a[k])
      invariant forall k :: j < k <= i ==> a[k] == old(a[k - 1])
      invariant forall k :: i < k < a.Length ==> a[k] == old(a[k])
      invariant forall k :: j <= k < i ==> Compare(old(a[k]), x, key, order) > 0
    {
      var y := a[j - 1];
      assert y == old(a[j - 1]);
      if Compare(y, x, key, order) <= 0 {
        return;
      }
      a[j] := y;
      j := j - 1;
    }
  }

  // ---------------------------------------------------------------------
  // mockQuery

  /** A sort is requested when `sortField` is truthy. */
  predicate SortRequested(p: Params) {
    p.sortField.Some? && p.sortField.value != ""
  }

  /** `page = 1`, `pageSize = 20` and `sortOrder = 'asc'` when undefined. */
  function PageOf(p: Params): int { p.page.GetOr(1) }
  function PageSizeOf(p: Params): int { p.pageSize.GetOr(20) }
  function OrderOf(p: Params): string { p.sortOrder.GetOr("asc") }

  /** `(page - 1) * pageSize`. */
  function PageStart(p: Params): int { (PageOf(p) - 1) * PageSizeOf(p) }

  /** The filtered records, sorted when a sort field is given. */
  function Arrange(s: seq<Influencer>, p: Params): seq<Influencer> {
    if SortRequested(p) then SortBy(s, p.sortField.value, OrderOf(p)) else s
  }

  /** The query run over a list of records: filter, arrange, then cut out the page. */
  function Query(records: seq<Influencer>, p: Params): QueryResult {
    var filtered := FilterItems(records, p.filters);
    QueryResult(Slice(Arrange(filtered, p), PageStart(p), PageStart(p) + PageSizeOf(p)), |filtered|)
  }

  /** `mockQuery(params)`: the query over `MOCK_ITEMS`. */
  method MockQuery(p: Params) returns (r: QueryResult)
    ensures r == Query(MockItems, p)
  {
    var page, pageSize := p.page.GetOr(1), p.pageSize.GetOr(20);
    var sortOrder := p.sortOrder.GetOr("asc");
    var arr := MockItems;
    arr := FilterItems(arr, p.filters);
    if p.sortField.Some? && p.sortField.value != "" {
      var a := new Influencer[|arr|](i requires 0 <= i < |arr| => arr[i]);
      assert a[..] == arr;
      SortInPlace(a, p.sortField.value, sortOrder);
      SortByPermutes(arr, p.sortField.value, sortOrder);
      arr := a[..];
    }
    var total := |arr|;
    var start := (page - 1) * pageSize;
    r := QueryResult(Slice(arr, start, start + pageSize), total);
  }

  /**
   * The records a query arranges are the ones it filtered, permuted: in
   * comparator order and stable when a sort is requested, else untouched.
   */
  lemma ArrangeSpec(s: seq<Influencer>, p: Params)
    ensures multiset(Arrange(s, p)) == multiset(s) && |Arrange(s, p)| == |s|
    ensures !SortRequested(p) ==> Arrange(s, p) == s
    ensures SortRequested(p) ==> SortedBy(Arrange(s, p), p.sortField.value, OrderOf(p))
    ensures SortRequested(p) ==> forall y ::
      TiedWith(Arrange(s, p), y, p.sortField.value, OrderOf(p)) == TiedWith(s, y, p.sortField.value, OrderOf(p))
  {
    if SortRequested(p) {
      var key, order := p.sortField.value, OrderOf(p);
      SortByPermutes(s, key, order);
      SortBySorted(s, key, order);
      forall y {
        SortByStable(s, y, key, order);
      }
    }
  }

  /**
   * `total` counts every record that passes the filters, before paging; for
   * a page of at least 1 the items are the arranged records from
   * `(page - 1) * pageSize` on, at most `pageSize` of them, and none past
   * the end.
   */
  lemma QueryPage(records: seq<Influencer>, p: Params)
    requires PageOf(p) >= 1 && PageSizeOf(p) >= 0
    ensures var r, arranged := Query(records, p), Arrange(FilterItems(records, p.filters), p);
      && r.total == |FilterItems(records, p.filters)|
      && |r.items| <= PageSizeOf(p)
      && |r.items| == (if PageStart(p) + PageSizeOf(p) <= r.total then PageSizeOf(p)
                       else if PageStart(p) <= r.total then r.total - PageStart(p) else 0)
      && (PageStart(p) >= r.total ==> r.items == [])
      && (forall i :: 0 <= i < |r.items| ==>
            0 <= PageStart(p) + i < |arranged| && r.items[i] == arranged[PageStart(p) + i])
  {
    var filtered := FilterItems(records, p.filters);
    var arranged := Arrange(filtered, p);
    var start, size := PageStart(p), PageSizeOf(p);
    var r := Query(records, p);
    assert r == QueryResult(Slice(arranged, start, start + size), |filtered|);
    ArrangeLength(filtered, p);
    assert r.total == |arranged|;
    PageStartNonNegative(p);
    SliceWindow(arranged, start, size);
  }

  /**
   * Pages below 1, which the address bar can produce (`?page=-1`): page 0
   * is always empty, and on a negative page both ends of the window are
   * negative, so `slice` counts them from the end of the arranged list,
   * each clamped at 0.
   */
  lemma QueryNonPositivePage(records: seq<Influencer>, p: Params)
    requires PageOf(p) <= 0 && PageSizeOf(p) > 0
    ensures var r, arranged := Query(records, p), Arrange(FilterItems(records, p.filters), p);
      var n, start, end := |arranged|, PageStart(p), PageStart(p) + PageSizeOf(p);
      && r.total == n
      && (PageOf(p) == 0 ==> r.items == [])
      && (PageOf(p) < 0 ==>
            var b, e := (if n + start < 0 then 0 else n + start), (if n + end < 0 then 0 else n + end);
            b <= e <= n && r.items == arranged[b..e])
  {
    var filtered := FilterItems(records, p.filters);
    var arranged := Arrange(filtered, p);
    var start, end := PageStart(p), PageStart(p) + PageSizeOf(p);
    var r := Query(records, p);
    assert r == QueryResult(Slice(arranged, start, end), |filtered|);
    ArrangeLength(filtered, p);
    NonPositivePageEnds(p);
    if PageOf(p) == 0 {
      SliceToZero(arranged, start);
    } else {
      SliceFromEnd(arranged, start, end);
    }
  }

  /** Where the window of a page below 1 ends: at 0 for page 0, before 0 below it. */
  lemma NonPositivePageEnds(p: Params)
    requires PageOf(p) <= 0 && PageSizeOf(p) > 0
    ensures PageStart(p) < PageStart(p) + PageSizeOf(p)
    ensures PageOf(p) == 0 ==> PageStart(p) + PageSizeOf(p) == 0
    ensures PageOf(p) < 0 ==> PageStart(p) + PageSizeOf(p) < 0
  {
    var page, size := PageOf(p), PageSizeOf(p);
    assert PageStart(p) + size == page * size;
    if page < 0 {
      assert page * size <= -1 * size;
    }
  }

  lemma PageStartNonNegative(p: Params)
    requires PageOf(p) >= 1 && PageSizeOf(p) >= 0
    ensures PageStart(p) >= 0
  {
    var page, size := PageOf(p), PageSizeOf(p);
    assert (page - 1) * size >= 0 * size;
  }

  lemma ArrangeLength(s: seq<Influencer>, p: Params)
    ensures |Arrange(s, p)| == |s|
  {
    SortByPermutes(s, p.sortField.GetOr(""), OrderOf(p));
  }

  /**
   * Pagination's Next is enabled exactly when the next page's window
   * starts below the total, so the page it asks for is not empty.
   */
  lemma NextPageNonEmpty(records: seq<Influencer>, p: Params)
    requires PageOf(p) >= 0 && PageSizeOf(p) > 0
    ensures var next := p.(page := Some(PageOf(p) + 1));
      Pagination.HasNext(PageOf(p), PageSizeOf(p), Query(records, p).total) <==> |Query(records, next).items| > 0
  {
    var next := p.(page := Some(PageOf(p) + 1));
    var filtered := FilterItems(records, p.filters);
    var page, size := PageOf(p), PageSizeOf(p);
    assert PageStart(next) == page * size;
    assert page * size >= 0 by {
      assert page * size >= 0 * size;
    }
    assert Arrange(filtered, next) == Arrange(filtered, p);
    ArrangeLength(filtered, p);
    SliceWindow(Arrange(filtered, p), PageStart(next), size);
  }

  /**
   * Page -1, which `?page=-1` in the address bar yields: Next is enabled
   * whatever the total, yet the page it asks for, page 0, is the window
   * `slice(-pageSize, 0)`, which is always empty.
   */
  lemma NextFromPageMinusOne(records: seq<Influencer>, p: Params)
    requires PageOf(p) == -1 && PageSizeOf(p) > 0
    ensures Pagination.HasNext(PageOf(p), PageSizeOf(p), Query(records, p).total)
    ensures Query(records, p.(page := Some(0))).items == []
  {
    var next := p.(page := Some(0));
    var size := PageSizeOf(p);
    assert PageStart(next) == -size && PageStart(next) + PageSizeOf(next) == 0;
    assert PageOf(p) * size < 0;
  }

  /** `{min_follower: 500000000}` keeps three mock records: ids 1, 2 and 3, in that order. */
  lemma MinFollowerScenario()
    ensures var p := Params(Filters(Some(Int(500000000)), None, None, None, None, None, None, None, None),
                            None, None, None, None);
      && Query(MockItems, p).total == 3
      && Query(MockItems, p).items == MockItems[..3]
  {
    var f := Filters(Some(Int(500000000)), None, None, None, None, None, None, None, None);
    MockPrefix();
    var r1, r2, r3, r4, r5 := MockItems[0], MockItems[1], MockItems[2], MockItems[3], MockItems[4];
    MinFollowerMatches(r1, f, 500000000);
    MinFollowerMatches(r2, f, 500000000);
    MinFollowerMatches(r3, f, 500000000);
    MinFollowerMatches(r4, f, 500000000);
    MinFollowerMatches(r5, f, 500000000);
    FilterThreeOfFive(r1, r2, r3, r4, r5, f);
    var filtered := FilterItems(MockItems, f);
    var p := Params(f, None, None, None, None);
    assert PageStart(p) == 0 && PageSizeOf(p) == 20 && Arrange(filtered, p) == filtered;
    SliceWhole(filtered, 0, 20);
  }

  /** With only a follower minimum, a record passes exactly when it has that many followers. */
  lemma MinFollowerMatches(it: Influencer, f: Filters, m: int)
    requires f == Filters(Some(Int(m)), None, None, None, None, None, None, None, None)
    ensures Matches(it, f) <==> it.followers >= m
  {
  }

  /** Five records of which the first three pass filter down to those three. */
  lemma FilterThreeOfFive(r1: Influencer, r2: Influencer, r3: Influencer, r4: Influencer, r5: Influencer, f: Filters)
    requires Matches(r1, f) && Matches(r2, f) && Matches(r3, f)
    requires !Matches(r4, f) && !Matches(r5, f)
    ensures FilterItems([r1, r2, r3, r4, r5], f) == [r1, r2, r3]
  {
    FilterSnoc([], r1, f);
    assert [] + [r1] == [r1];
    FilterSnoc([r1], r2, f);
    assert [r1] + [r2] == [r1, r2];
    FilterSnoc([r1, r2], r3, f);
    assert [r1, r2] + [r3] == [r1, r2, r3];
    FilterSnoc([r1, r2, r3], r4, f);
    assert [r1, r2, r3] + [r4] == [r1, r2, r3, r4];
    FilterSnoc([r1, r2, r3, r4], r5, f);
    assert [r1, r2, r3, r4] + [r5] == [r1, r2, r3, r4, r5];
  }

  /** The mock list spelled out record by record. */
  lemma MockPrefix()
    ensures MockItems == [MockItems[0], MockItems[1], MockItems[2], MockItems[3], MockItems[4]]
    ensures MockItems[..3] == [MockItems[0], MockItems[1], MockItems[2]]
  {
  }

  /**
   * No filters on page 1 of 20: all five records, in their listed order,
   * and Pagination offers no next page.
   */
  lemma UnfilteredFirstPageScenario()
    ensures var p := Params(Filters(None, None, None, None, None, None, None, None, None),
                            Some(1), Some(20), None, None);
      && Query(MockItems, p) == QueryResult(MockItems, 5)
      && !Pagination.HasNext(1, 20, Query(MockItems, p).total)
  {
    var f := Filters(None, None, None, None, None, None, None, None, None);
    FilterAll(MockItems, f);
    assert MockItems[0..5] == MockItems;
  }

  /**
   * The mock records are listed by follower count, largest first, so the
   * page's default descending order on followers leaves them as they are.
   */
  lemma FollowersDescScenario()
    ensures SortBy(MockItems, "followers", "desc") == MockItems
  {
    forall i, j | 0 <= i < j < |MockItems|
      ensures Compare(MockItems[i], MockItems[j], "followers", "desc") <= 0
    {
      CompareByKind(MockItems[i], MockItems[j], "followers", "desc");
      assert MockItems[i].followers >= MockItems[j].followers;
    }
    SortByOfSorted(MockItems, "followers", "desc");
  }

  /** Ascending by followers, the mock records come out in reverse: ids 5, 4, 3, 2, 1. */
  lemma FollowersAscScenario()
    ensures SortBy(MockItems, "followers", "asc") == [MockItems[4], MockItems[3], MockItems[2], MockItems[1], MockItems[0]]
  {
    forall i, j | 0 <= i < j < |MockItems|
      ensures Compare(MockItems[i], MockItems[j], "followers", "asc") > 0
    {
      CompareByKind(MockItems[i], MockItems[j], "followers", "asc");
      assert MockItems[i].followers > MockItems[j].followers;
    }
    SortByReversed(MockItems, "followers", "asc");
    MockPrefix();
  }

  // ---------------------------------------------------------------------
  // Remote data and the choice of source

  /**
   * The response body as parsed JSON: `null`, or an object of which either
   * field may be missing.
   */
  datatype Body = NullBody | Body(items: Option<seq<Influencer>>, total: Option<int>)

  /**
   * What the network does with one request: `fetch` rejects (no network,
   * DNS or CORS failure), or a response arrives with its status and its
   * parsed body, None when `resp.json()` fails. `ok` is `resp.ok`, which
   * the Fetch Standard makes true exactly for a status from 200 to 299.
   */
  datatype HttpResponse = Unreachable | Answered(ok: bool, status: int, body: Option<Body>)

  /** Why `fetchRemote` threw. */
  datatype RemoteError =
    | ConfigurationError
    | InvalidBaseUrl
    | NetworkError
    | HttpError(status: int)
    | MalformedBody

  datatype RemoteOutcome = Fetched(body: Body) | Failed(error: RemoteError)

  /** The params as `Object.entries` lists them. */
  function ParamEntries(p: Params): (q: seq<Url.Entry>)
    ensures Url.DistinctKeys(q)
  {
    var f := p.filters;
    [ ("min_follower", NumEntry(f.minFollower)),
      ("max_follower", NumEntry(f.maxFollower)),
      ("min_avg_feed_like", NumEntry(f.minAvgFeedLike)),
      ("max_avg_feed_like", NumEntry(f.maxAvgFeedLike)),
      ("min_real_engagement", NumEntry(f.minRealEngagement)),
      ("max_real_engagement", NumEntry(f.maxRealEngagement)),
      ("main_audience_age_range", StrEntry(f.ageRange)),
      ("is_verified", if f.isVerified.Some? then Url.Bool(f.isVerified.value) else Url.Undefined),
      ("main_audience_gender", StrEntry(f.gender)),
      ("page", if p.page.Some? then Url.Number(Int(p.page.value)) else Url.Undefined),
      ("pageSize", if p.pageSize.Some? then Url.Number(Int(p.pageSize.value)) else Url.Undefined),
      ("sortField", StrEntry(p.sortField)),
      ("sortOrder", StrEntry(p.sortOrder)) ]
  }

  function NumEntry(x: Option<Num>): Url.QueryValue {
    if x.Some? then Url.Number(x.value) else Url.Undefined
  }

  function StrEntry(x: Option<string>): Url.QueryValue {
    if x.Some? then Url.Str(x.value) else Url.Undefined
  }

  /**
   * The query `fetchRemote` puts on the request URL: every parameter that
   * is not undefined, null or "", each once, as `String(v)`; no value sent
   * is empty.
   */
  function RemoteQuery(p: Params): (sp: Url.Pairs)
    ensures sp == Url.Retained(ParamEntries(p))
    ensures forall i :: 0 <= i < |sp| ==> sp[i].1 != ""
  {
    var q := ParamEntries(p);
    Url.SerializeRecord(q);
    RetainedNonEmpty(q);
    Url.Serialize(q)
  }

  lemma {:induction false} RetainedNonEmpty(q: seq<Url.Entry>)
    ensures forall i :: 0 <= i < |Url.Retained(q)| ==> Url.Retained(q)[i].1 != ""
    decreases |q|
  {
    if q != [] {
      RetainedNonEmpty(q[..|q| - 1]);
      var v := q[|q| - 1].1;
      if Url.Kept(v) {
        match v
        case Number(n) => assert |NumToString(n)| > 0;
        case _ =>
      }
    }
  }

  /**
   * `NEXT_PUBLIC_API_BASE_URL` (empty when unset), whether
   * `new URL('/api/discover', base)` accepts that base, and
   * `NEXT_PUBLIC_USE_MOCK === '1'`.
   */
  datatype Config = Config(baseUrl: string, baseUrlValid: bool, useMock: bool)

  /**
   * `fetchRemote(params)` given the network's response to its request: it
   * throws without a base URL, on a base `new URL` rejects, when `fetch`
   * rejects, on a non-ok status and on a body that is not JSON; otherwise
   * it resolves to the parsed body, JSON `null` included.
   */
  function FetchRemote(cfg: Config, p: Params, response: HttpResponse): (r: RemoteOutcome)
    ensures cfg.baseUrl == "" ==> r == Failed(ConfigurationError)
    ensures cfg.baseUrl != "" && !cfg.baseUrlValid ==> r == Failed(InvalidBaseUrl)
    ensures cfg.baseUrl != "" && cfg.baseUrlValid && response.Unreachable? ==> r == Failed(NetworkError)
    ensures cfg.baseUrl != "" && cfg.baseUrlValid && response.Answered? && !response.ok ==>
      r == Failed(HttpError(response.status))
    ensures r.Fetched? <==>
      cfg.baseUrl != "" && cfg.baseUrlValid && response.Answered? && response.ok && response.body.Some?
    ensures cfg.baseUrl != "" && cfg.baseUrlValid && response.Answered? && response.ok && response.body.None? ==>
      r == Failed(MalformedBody)
    ensures r.Fetched? ==> r.body == response.body.value
  {
    if cfg.baseUrl == "" then Failed(ConfigurationError)
    else if !cfg.baseUrlValid then Failed(InvalidBaseUrl)
    else if response.Unreachable? then Failed(NetworkError)
    else if !response.ok then Failed(HttpError(response.status))
    else if response.body.None? then Failed(MalformedBody)
    else Fetched(response.body.value)
  }

  /** Where `fetchInfluencers` took its answer from. */
  datatype Source = MockData | RemoteData | MockFallback(error: RemoteError)

  datatype Served = Served(body: Body, source: Source)

  /** The mock answer as a body. */
  function MockBody(p: Params): Body {
    var r := Query(MockItems, p);
    Body(Some(r.items), Some(r.total))
  }

  /**
   * `fetchInfluencers(params)`: mock data when mock mode is forced or no
   * base URL is set, without touching the network; otherwise the remote
   * answer, or mock data when the remote attempt fails in any way.
   */
  function FetchInfluencers(cfg: Config, p: Params, response: HttpResponse): (r: Served)
    ensures cfg.useMock || cfg.baseUrl == "" ==> r == Served(MockBody(p), MockData)
    ensures r.source.RemoteData? <==>
      !cfg.useMock && cfg.baseUrl != "" && FetchRemote(cfg, p, response).Fetched?
    ensures r.source.RemoteData? ==> r.body == FetchRemote(cfg, p, response).body
    ensures !r.source.RemoteData? ==> r.body == MockBody(p)
    ensures r.source.MockFallback? ==>
      !cfg.useMock && FetchRemote(cfg, p, response) == Failed(r.source.error)
  {
    if cfg.useMock || cfg.baseUrl == "" then Served(MockBody(p), MockData)
    else
      match FetchRemote(cfg, p, response)
      case Fetched(body) => Served(body, RemoteData)
      case Failed(e) => Served(MockBody(p), MockFallback(e))
  }

  /**
   * The only JSON `null` that reaches the page is a remote one: an ok
   * (2xx) response whose body parses to `null`; the mock answer is always an
   * object.
   */
  lemma NullBodyIsRemote(cfg: Config, p: Params, response: HttpResponse)
    ensures FetchInfluencers(cfg, p, response).body.NullBody? <==>
      && !cfg.useMock && cfg.baseUrl != "" && cfg.baseUrlValid
      && response.Answered? && response.ok && response.body == Some(NullBody)
  {
  }
}

=== FILE: filter_modal.dfy ===
/**
 * src/components/FilterModal.tsx: the `Filters` record and the advanced
 * filter dialog, whose draft copy of the filters each input rewrites one
 * field at a time until Apply hands the draft to the page.
 */
module FilterModal {
  import opened JsRuntime
  import Url

  /**
   * `Filters`: inclusive numeric bounds, the audience age range, the
   * verified flag and the audience gender, each optional. Values read from
   * the address bar are cast, not checked, so the age range and the gender
   * may hold any string.
   */
  datatype Filters = Filters(
    minFollower: Option<Num>,
    maxFollower: Option<Num>,
    minAvgFeedLike: Option<Num>,
    maxAvgFeedLike: Option<Num>,
    minRealEngagement: Option<Num>,
    maxRealEngagement: Option<Num>,
    ageRange: Option<string>,
    isVerified: Option<bool>,
    gender: Option<string>)

  /** The six number inputs of the dialog. */
  datatype RangeField =
    | MinFollower | MaxFollower
    | MinAvgFeedLike | MaxAvgFeedLike
    | MinRealEngagement | MaxRealEngagement

  /** The bound a number input edits. */
  function Range(f: Filters, field: RangeField): Option<Num> {
    match field
    case MinFollower => f.minFollower
    case MaxFollower => f.maxFollower
    case MinAvgFeedLike => f.minAvgFeedLike
    case MaxAvgFeedLike => f.maxAvgFeedLike
    case MinRealEngagement => f.minRealEngagement
    case MaxRealEngagement => f.maxRealEngagement
  }

  /** `{ ...f, [field]: x }` for a number input. */
  function WithRange(f: Filters, field: RangeField, x: Option<Num>): Filters {
    match field
    case MinFollower => f.(minFollower := x)
    case MaxFollower => f.(maxFollower := x)
    case MinAvgFeedLike => f.(minAvgFeedLike := x)
    case MaxAvgFeedLike => f.(maxAvgFeedLike := x)
    case MinRealEngagement => f.(minRealEngagement := x)
    case MaxRealEngagement => f.(maxRealEngagement := x)
  }

  /**
   * A number input changes its own bound and leaves every other field of the
   * draft as it was.
   */
  lemma WithRangeIsolated(f: Filters, field: RangeField, x: Option<Num>)
    ensures Range(WithRange(f, field, x), field) == x
    ensures forall other :: other != field ==> Range(WithRange(f, field, x), other) == Range(f, other)
    ensures WithRange(f, field, x).ageRange == f.ageRange
    ensures WithRange(f, field, x).isVerified == f.isVerified
    ensures WithRange(f, field, x).gender == f.gender
  {
  }

  /** The dialog's `number` helper: "" is undefined, anything else `Number(v)`. */
  function InputNumber(v: string): (r: Option<Num>)
    ensures r == None <==> v == ""
  {
    if v == "" then None else Some(ToNumber(v))
  }

  /**
   * Unlike `parseNumber`, the helper has no NaN guard: text that is not a
   * number becomes a NaN bound. On numeric text the two agree.
   */
  lemma InputNumberVersusParseNumber(v: string)
    ensures v != "" && ToNumber(v) == NaN ==> InputNumber(v) == Some(NaN) && Url.ParseNumber(Some(v)) == None
    ensures ToNumber(v).Int? ==> InputNumber(v) == Url.ParseNumber(Some(v))
  {
  }

  /** The verified checkbox: checked is `true`, unchecked is undefined, never `false`. */
  function CheckboxValue(checked: bool): (r: Option<bool>)
    ensures r != Some(false)
    ensures r == Some(true) <==> checked
  {
    if checked then Some(true) else None
  }

  /** `e.target.value || undefined` of a select. */
  function SelectValue(v: string): (r: Option<string>)
    ensures r == None <==> v == ""
    ensures r.Some? ==> r.value == v
  {
    if v == "" then None else Some(v)
  }

  /** The option values of the age range select. */
  const AgeRangeOptions: set<string> := {"", "13-17", "18-24", "25-34", "35-44"}

  /** The option values of the gender select. */
  const GenderOptions: set<string> := {"", "male", "female"}

  /** Picking a gender option gives 'male', 'female' or undefined. */
  lemma GenderSelectValues(v: string)
    requires v in GenderOptions
    ensures SelectValue(v) in {None, Some("male"), Some("female")}
  {
  }

  /** The dialog's state: the draft filters. */
  class FilterDialog {
    var draft: Filters

    /** `useState<Filters>(initial)`. */
    constructor (initial: Filters)
      ensures draft == initial
    {
      draft := initial;
    }

    /** The effect that copies a new `initial` into the draft. */
    method SyncInitial(initial: Filters)
      modifies this
      ensures draft == initial
    {
      draft := initial;
    }

    /** A number input's change event with the input's text `v`. */
    method OnRangeInput(field: RangeField, v: string)
      modifies this
      ensures draft == WithRange(old(draft), field, InputNumber(v))
      ensures Range(draft, field) == InputNumber(v)
      ensures forall other :: other != field ==> Range(draft, other) == Range(old(draft), other)
    {
      draft := WithRange(draft, field, InputNumber(v));
      WithRangeIsolated(old(draft), field, InputNumber(v));
    }

    /** The age range select's change event. */
    method OnAgeRangeSelect(v: string)
      requires v in AgeRangeOptions
      modifies this
      ensures draft == old(draft).(ageRange := SelectValue(v))
    {
      draft := draft.(ageRange := SelectValue(v));
    }

    /** The verified checkbox's change event. */
    method OnVerifiedChange(checked: bool)
      modifies this
      ensures draft == old(draft).(isVerified := CheckboxValue(checked))
      ensures draft.isVerified != Some(false)
    {
      draft := draft.(isVerified := if checked then Some(true) else None);
    }

    /** The gender select's change event. */
    method OnGenderSelect(v: string)
      requires v in GenderOptions
      modifies this
      ensures draft == old(draft).(gender := SelectValue(v))
      ensures draft.gender in {None, Some("male"), Some("female")}
    {
      draft := draft.(gender := SelectValue(v));
    }

    /** Apply: the draft goes to `onApply` as it is, then the dialog closes. */
    method Apply() returns (applied: Filters)
      ensures applied == draft
    {
      applied := draft;
    }
  }
}

=== FILE: js_runtime.dfy ===
/**
 * The pieces of JavaScript's runtime that the discover page leans on:
 * optional values (`undefined`), numbers as the page uses them (integers or
 * NaN), `Number(string)` on decimal integers, `String(number)`,
 * `Array.prototype.slice` with its relative indices, and a total order on
 * strings standing in for `localeCompare`.
 */
module JsRuntime {

  /** A value that may be `undefined`. */
  datatype Option<+T> = None | Some(value: T) {
    /** `x ?? default` */
    function GetOr(default: T): T {
      if Some? then value else default
    }
  }

  /** A JavaScript number as the model sees it: an integer, or NaN. */
  datatype Num = Int(value: int) | NaN

  // ---------------------------------------------------------------------
  // Decimal digits

  predicate IsDigit(c: char) {
    '0' <= c <= '9'
  }

  predicate AllDigits(s: string) {
    forall i :: 0 <= i < |s| ==> IsDigit(s[i])
  }

  function DigitChar(d: nat): (c: char)
    requires d < 10
    ensures IsDigit(c) && (c as int) - ('0' as int) == d
  {
    ('0' as int + d) as char
  }

  /** The value of a string of decimal digits, most significant first. */
  function DigitsValue(s: string): nat
    requires AllDigits(s)
    decreases |s|
  {
    if s == [] then 0
    else DigitsValue(s[..|s| - 1]) * 10 + ((s[|s| - 1] as int) - ('0' as int))
  }

  /** The decimal digits of `n`, without leading zeros. */
  function NatToString(n: nat): (s: string)
    ensures |s| > 0 && AllDigits(s)
    decreases n
  {
    if n < 10 then [DigitChar(n)] else NatToString(n / 10) + [DigitChar(n % 10)]
  }

  /** `String(n)` for an integer `n`. */
  function IntToString(n: int): (s: string)
    ensures |s| > 0
    ensures s[0] == '-' <==> n < 0
    ensures n >= 0 ==> AllDigits(s)
    ensures n < 0 ==> AllDigits(s[1..]) && |s| > 1
  {
    if n < 0 then "-" + NatToString(-n) else NatToString(n)
  }

  /** `String(x)` for a number `x`. */
  function NumToString(x: Num): string {
    match x
    case Int(n) => IntToString(n)
    case NaN => "NaN"
  }

  /**
   * `Number(s)` for the strings the model admits: the empty string is 0,
   * an optionally signed run of decimal digits is its integer value, and
   * everything else is NaN.
   */
  function ToNumber(s: string): Num {
    if s == "" then Int(0)
    else if AllDigits(s) then Int(DigitsValue(s))
    else if (s[0] == '-' || s[0] == '+') && |s| > 1 && AllDigits(s[1..]) then
      Int(if s[0] == '-' then 0 - DigitsValue(s[1..]) as int else DigitsValue(s[1..]))
    else NaN
  }

  lemma {:induction false} NatToStringValue(n: nat)
    ensures DigitsValue(NatToString(n)) == n
  {
    if n >= 10 {
      var s := NatToString(n);
      assert s[..|s| - 1] == NatToString(n / 10);
      NatToStringValue(n / 10);
    }
  }

  /** `Number(String(n)) === n` for every integer `n`. */
  lemma IntToStringRoundTrip(n: int)
    ensures ToNumber(IntToString(n)) == Int(n)
  {
    if n < 0 {
      var s := IntToString(n);
      assert s[1..] == NatToString(-n);
      assert !AllDigits(s) by { assert !IsDigit(s[0]); }
      NatToStringValue(-n);
    } else {
      NatToStringValue(n);
    }
  }

  /** `String(NaN)` reads back as NaN. */
  lemma NaNRoundTrip()
    ensures ToNumber(NumToString(NaN)) == NaN
  {
    assert !IsDigit("NaN"[0]);
  }

  // ---------------------------------------------------------------------
  // Number comparisons: every comparison with NaN is false.

  predicate LessThan(x: int, y: Num) {
    y.Int? && x < y.value
  }

  predicate GreaterThan(x: int, y: Num) {
    y.Int? && x > y.value
  }

  // ---------------------------------------------------------------------
  // Array.prototype.slice

  /** How `slice` resolves one of its arguments against the length. */
  function RelativeIndex(i: int, len: nat): (r: nat)
    ensures r <= len
    ensures 0 <= i ==> r == (if i < len then i else len)
    ensures i < 0 ==> r == (if len + i < 0 then 0 else len + i)
  {
    if i < 0 then (if len + i < 0 then 0 else len + i)
    else if i > len then len
    else i
  }

  /** `s.slice(start, end)`; negative arguments count from the end. */
  function Slice<T>(s: seq<T>, start: int, end: int): (r: seq<T>)
    ensures |r| <= |s|
  {
    var b, e := RelativeIndex(start, |s|), RelativeIndex(end, |s|);
    if b < e then s[b..e] else []
  }

  /**
   * A window `s.slice(start, start + size)` with a non-negative start is
   * the run of `s` from `start`, at most `size` long, empty past the end.
   */
  lemma SliceWindow<T>(s: seq<T>, start: int, size: int)
    requires 0 <= start && 0 <= size
    ensures var r := Slice(s, start, start + size);
      && |r| <= size
      && (start >= |s| ==> r == [])
      && (start < |s| && size > 0 ==> |r| > 0)
      && (forall i :: 0 <= i < |r| ==> start + i < |s| && r[i] == s[start + i])
      && |r| == (if start + size <= |s| then size else if start <= |s| then |s| - start else 0)
  {
  }

  /**
   * A window whose ends are both negative counts them from the end of `s`,
   * each clamped at 0.
   */
  lemma SliceFromEnd<T>(s: seq<T>, start: int, end: int)
    requires start <= end < 0
    ensures var b, e := (if |s| + start < 0 then 0 else |s| + start), (if |s| + end < 0 then 0 else |s| + end);
      b <= e <= |s| && Slice(s, start, end) == s[b..e]
  {
  }

  /** A window ending at index 0 is empty. */
  lemma SliceToZero<T>(s: seq<T>, start: int)
    ensures Slice(s, start, 0) == []
  {
  }

  /** A window from index 0 that covers the whole sequence is the sequence. */
  lemma SliceWhole<T>(s: seq<T>, start: int, size: int)
    requires start == 0 && |s| <= size
    ensures Slice(s, start, start + size) == s
  {
    assert s[0..|s|] == s;
  }

  // ---------------------------------------------------------------------
  // String order

  /**
   * Three-way comparison of strings by code unit, the model's stand-in for
   * `localeCompare`: negative, zero or positive.
   */
  function StrCompare(a: string, b: string): (r: int)
    ensures -1 <= r <= 1
    ensures r == 0 <==> a == b
    decreases |a|
  {
    if a == [] && b == [] then 0
    else if a == [] then -1
    else if b == [] then 1
    else if a[0] < b[0] then -1
    else if a[0] > b[0] then 1
    else
      assert a == [a[0]] + a[1..] && b == [b[0]] + b[1..];
      StrCompare(a[1..], b[1..])
  }

  /** Swapping the arguments negates the comparison. */
  lemma {:induction false} StrCompareFlip(a: string, b: string)
    ensures StrCompare(b, a) == -StrCompare(a, b)
    decreases |a|
  {
    if a != [] && b != [] && a[0] == b[0] {
      StrCompareFlip(a[1..], b[1..]);
    }
  }

  /** The order is transitive. */
  lemma {:induction false} StrCompareTrans(a: string, b: string, c: string)
    requires StrCompare(a, b) <= 0 && StrCompare(b, c) <= 0
    ensures StrCompare(a, c) <= 0
    decreases |a|
  {
    if a != [] && b != [] && c != [] && a[0] == b[0] == c[0] {
      StrCompareTrans(a[1..], b[1..], c[1..]);
    }
  }
}

=== FILE: pagination.dfy ===
/**
 * src/components/Pagination.tsx: the previous/next controls under the
 * results table. The component holds no state; it derives two flags from
 * its props and calls `onChange` with the neighbouring page when a button
 * is pressed and its flag allows it.
 */
module Pagination {
  import opened JsRuntime

  /** `hasPrev`: there is a page before this one. */
  predicate HasPrev(page: int) {
    page > 1
  }

  /** `hasNext`: the rows shown so far do not reach the total. */
  predicate HasNext(page: int, pageSize: int, total: int) {
    page * pageSize < total
  }

  /** Pressing Prev: the page passed to `onChange`, or None when nothing is called. */
  function PrevClick(page: int): (target: Option<int>)
    ensures target.Some? <==> HasPrev(page)
    ensures target.Some? ==> target.value == page - 1 && target.value >= 1
  {
    if page > 1 then Some(page - 1) else None
  }

  /** Pressing Next: the page passed to `onChange`, or None when nothing is called. */
  function NextClick(page: int, pageSize: int, total: int): (target: Option<int>)
    ensures target.Some? <==> HasNext(page, pageSize, total)
    ensures target.Some? ==> target.value == page + 1
  {
    if page * pageSize < total then Some(page + 1) else None
  }

  /** Five results at twenty per page fit on the first page: no Prev, no Next. */
  lemma FirstOfOnePage()
    ensures !HasPrev(1) && !HasNext(1, 20, 5)
    ensures PrevClick(1) == None && NextClick(1, 20, 5) == None
  {
  }
}

=== FILE: seq_facts.dfy ===
/**
 * Facts about sequences used as JavaScript arrays and sets: duplicate
 * freedom, removal of every occurrence (`arr.filter(x => x !== v)`), and
 * the subsequence order that `arr.filter` keeps.
 */
module SeqFacts {

  /** No element occurs twice. */
  predicate NoDup<T(==)>(s: seq<T>) {
    forall i, j :: 0 <= i < j < |s| ==> s[i] != s[j]
  }

  /** `s.filter(y => y !== x)`: every occurrence of `x` removed, order kept. */
  function RemoveAll<T(==,!new)>(s: seq<T>, x: T): (r: seq<T>)
    ensures x !in r
    ensures forall y :: y != x ==> (y in r <==> y in s)
    ensures |r| <= |s|
    ensures NoDup(s) ==> NoDup(r)
    decreases |s|
  {
    if s == [] then []
    else
      var rest := RemoveAll(s[..|s| - 1], x);
      assert forall y :: y in s <==> y in s[..|s| - 1] || y == s[|s| - 1];
      assert NoDup(s) ==> NoDup(s[..|s| - 1]) && s[|s| - 1] !in rest;
      if s[|s| - 1] == x then rest else rest + [s[|s| - 1]]
  }

  /** `t` keeps some of the elements of `s`, in the same order. */
  predicate SubsequenceOf<T(==)>(t: seq<T>, s: seq<T>)
    decreases |s|
  {
    if t == [] then true
    else if s == [] then false
    else if t[|t| - 1] == s[|s| - 1] then SubsequenceOf(t[..|t| - 1], s[..|s| - 1])
    else SubsequenceOf(t, s[..|s| - 1])
  }

  /** A subsequence of `s` stays one when `s` grows at the end. */
  lemma {:induction false} SubsequenceExtend<T>(t: seq<T>, s: seq<T>, x: T)
    requires SubsequenceOf(t, s)
    ensures SubsequenceOf(t, s + [x])
    decreases |s| + 1, 0
  {
    var sx := s + [x];
    assert sx[..|sx| - 1] == s;
    if t != [] && t[|t| - 1] == x {
      SubsequenceDropLast(t, s);
    }
  }

  /** Dropping the last element of a subsequence leaves a subsequence. */
  lemma {:induction false} SubsequenceDropLast<T>(t: seq<T>, s: seq<T>)
    requires t != [] && SubsequenceOf(t, s)
    ensures SubsequenceOf(t[..|t| - 1], s)
    decreases |s|, 1
  {
    var init := s[..|s| - 1];
    assert init + [s[|s| - 1]] == s;
    if t[|t| - 1] == s[|s| - 1] {
      SubsequenceExtend(t[..|t| - 1], init, s[|s| - 1]);
    } else {
      SubsequenceDropLast(t, init);
      SubsequenceExtend(t[..|t| - 1], init, s[|s| - 1]);
    }
  }

  /** Appending the same element to both keeps a subsequence. */
  lemma SubsequenceSnoc<T>(t: seq<T>, s: seq<T>, x: T)
    requires SubsequenceOf(t, s)
    ensures SubsequenceOf(t + [x], s + [x])
  {
    var tx, sx := t + [x], s + [x];
    assert tx[..|tx| - 1] == t && sx[..|sx| - 1] == s;
  }

  /** Removing every occurrence of `x` keeps the other elements in their order. */
  lemma {:induction false} RemoveAllKeepsOrder<T(!new)>(s: seq<T>, x: T)
    ensures SubsequenceOf(RemoveAll(s, x), s)
    decreases |s|
  {
    if s != [] {
      var init, last := s[..|s| - 1], s[|s| - 1];
      RemoveAllKeepsOrder(init, x);
      assert init + [last] == s;
      if last == x {
        SubsequenceExtend(RemoveAll(init, x), init, last);
      } else {
        SubsequenceSnoc(RemoveAll(init, x), init, last);
      }
    }
  }

  /** Removing an element that does not occur changes nothing. */
  lemma {:induction false} RemoveAbsent<T(!new)>(s: seq<T>, x: T)
    requires x !in s
    ensures RemoveAll(s, x) == s
    decreases |s|
  {
    if s != [] {
      RemoveAbsent(s[..|s| - 1], x);
      assert s[..|s| - 1] + [s[|s| - 1]] == s;
    }
  }

  /** In a duplicate-free sequence, removing `s[k]` cuts out exactly position `k`. */
  lemma {:induction false} RemoveAt<T(!new)>(s: seq<T>, k: nat)
    requires NoDup(s) && k < |s|
    ensures RemoveAll(s, s[k]) == s[..k] + s[k + 1..]
    decreases |s|
  {
    var init, last := s[..|s| - 1], s[|s| - 1];
    assert NoDup(init);
    if k == |s| - 1 {
      assert last !in init;
      RemoveAbsent(init, last);
    } else {
      assert init[k] == s[k] && last != s[k];
      RemoveAt(init, k);
      assert s[..k] == init[..k];
      assert s[k + 1..] == init[k + 1..] + [last];
    }
  }

  /** Appending a new element keeps a sequence duplicate-free. */
  lemma NoDupSnoc<T>(s: seq<T>, x: T)
    requires NoDup(s) && x !in s
    ensures NoDup(s + [x])
  {
    var t := s + [x];
    forall i, j | 0 <= i < j < |t|
      ensures t[i] != t[j]
    {
      assert t[i] == s[i];
    }
  }

  /** Appending `x` adds one occurrence of `x` and none of anything else. */
  lemma CountSnoc<T>(a: seq<T>, x: T, y: T)
    ensures multiset(a + [x])[y] == multiset(a)[y] + (if x == y then 1 else 0)
  {
    assert multiset(a + [x]) == multiset(a) + multiset{x};
  }

  /** Equal elements at two indices count twice in the multiset. */
  lemma CountTwo<T>(s: seq<T>, i: nat, j: nat)
    requires i < j < |s|
    ensures s[i] == s[j] ==> multiset(s)[s[i]] >= 2
  {
    assert s == s[..j] + s[j..];
    assert s[..j][i] == s[i] && s[j..][0] == s[j];
    assert s[i] in multiset(s[..j]) && s[j] in multiset(s[j..]);
  }

  /** In a duplicate-free sequence every value occurs at most once. */
  lemma {:induction false} NoDupCount<T>(s: seq<T>, x: T)
    requires NoDup(s)
    ensures multiset(s)[x] <= 1
    decreases |s|
  {
    if s != [] {
      var init, last := s[..|s| - 1], s[|s| - 1];
      assert NoDup(init);
      NoDupCount(init, x);
      assert s == init + [last];
      assert forall k :: 0 <= k < |init| ==> init[k] != last;
      assert multiset(init)[last] == 0;
    }
  }

  /** A permutation of a duplicate-free sequence is duplicate-free. */
  lemma NoDupPermutation<T>(a: seq<T>, b: seq<T>)
    requires NoDup(a) && multiset(a) == multiset(b)
    ensures NoDup(b)
  {
    forall i, j | 0 <= i < j < |b|
      ensures b[i] != b[j]
    {
      CountTwo(b, i, j);
      NoDupCount(a, b[i]);
    }
  }

  /** A duplicate-free sequence has as many distinct elements as entries. */
  lemma {:induction false} DistinctCardinality<T>(s: seq<T>)
    requires NoDup(s)
    ensures |set x | x in s| == |s|
    decreases |s|
  {
    if s != [] {
      var init := s[..|s| - 1];
      DistinctCardinality(init);
      assert (set x | x in s) == (set x | x in init) + {s[|s| - 1]};
      assert s[|s| - 1] !in init;
    }
  }

  /**
   * Two duplicate-free sequences of equal length, the first drawing its
   * elements from the second, hold the same elements.
   */
  lemma SameLengthSubsetIsEqual<T>(a: seq<T>, b: seq<T>)
    requires NoDup(a) && NoDup(b) && |a| == |b|
    requires forall x :: x in a ==> x in b
    ensures forall x :: x in b ==> x in a
  {
    var sa, sb := set x | x in a, set x | x in b;
    DistinctCardinality(a);
    DistinctCardinality(b);
    assert sa <= sb;
    forall y | y in b
      ensures y in a
    {
      if y !in a {
        SubsetCardinality(sa, sb - {y});
      }
    }
  }

  lemma {:induction false} SubsetCardinality<T>(a: set<T>, b: set<T>)
    requires a <= b
    ensures |a| <= |b|
    decreases |a|
  {
    if a != {} {
      var x :| x in a;
      SubsetCardinality(a - {x}, b - {x});
    }
  }

  /** Growing a permutation of `s[..|s| - 1]` by the last element of `s` gives a permutation of `s`. */
  lemma AppendLast<T>(s: seq<T>, r: seq<T>, q: seq<T>)
    requires s != [] && multiset(r) == multiset(s[..|s| - 1])
    requires multiset(q) == multiset(r) + multiset{s[|s| - 1]}
    ensures multiset(q) == multiset(s)
  {
    assert s == s[..|s| - 1] + [s[|s| - 1]];
  }

  /** An element of a permutation of `t + [x]` is `x` or an element of `t`. */
  lemma InPermutation<T>(a: seq<T>, t: seq<T>, x: T, y: T)
    requires multiset(a) == multiset(t) + multiset{x} && y in a
    ensures y == x || y in t
  {
    assert y in multiset(a);
  }

  /** Moving `t[j]` from the end of a prefix to the front of the suffix `t[j + 1..]`. */
  lemma ConsSuffix<T>(t: seq<T>, j: nat, a: seq<T>, b: seq<T>)
    requires j < |t| && b == a + [t[j]]
    ensures b + t[j + 1..] == a + t[j..]
  {
    assert t[j..] == [t[j]] + t[j + 1..];
  }
}

=== FILE: storage.dfy ===
/**
 * src/lib/storage.ts: the "watch later" list kept under one storage key.
 *
 * The stored entry is abstract: what `localStorage.getItem('watchlist')`
 * followed by `JSON.parse` yields. `WatchlistStore` holds that entry and its
 * methods are the module's functions, which read and rewrite it.
 */
module Storage {
  import opened SeqFacts

  /** A parsed JSON value, as far as `getWatchlist` looks at it. */
  datatype JsonValue = JString(s: string) | JArray(elems: seq<JsonValue>) | JOther

  /**
   * The storage entry: missing (`getItem` gives null or ""), text that
   * `JSON.parse` rejects, or a parsed value.
   */
  datatype StoredEntry = Missing | Unparseable | Parsed(json: JsonValue)

  /** `parsed.filter(v => typeof v === 'string')`. */
  function StringsOf(elems: seq<JsonValue>): (ids: seq<string>)
    ensures |ids| <= |elems|
    ensures forall s :: s in ids <==> JString(s) in elems
    decreases |elems|
  {
    if elems == [] then []
    else
      var init := elems[..|elems| - 1];
      var last := elems[|elems| - 1];
      assert forall v :: v in elems <==> v in init || v == last;
      StringsOf(init) + (if last.JString? then [last.s] else [])
  }

  /** What `getWatchlist()` returns for a stored entry. */
  function StoredIds(entry: StoredEntry): (ids: seq<string>)
    ensures entry.Missing? || entry.Unparseable? ==> ids == []
    ensures entry.Parsed? && !entry.json.JArray? ==> ids == []
    ensures entry.Parsed? && entry.json.JArray? ==>
      forall s :: s in ids <==> JString(s) in entry.json.elems
  {
    match entry
    case Missing => []
    case Unparseable => []
    case Parsed(json) =>
      if json.JArray? then StringsOf(json.elems) else []
  }

  /**
   * The filter keeps the string elements in their order: as JSON values
   * they are a subsequence of the array.
   */
  lemma {:induction false} StringsOfOrder(elems: seq<JsonValue>)
    ensures SubsequenceOf(JsonArrayOf(StringsOf(elems)), elems)
    decreases |elems|
  {
    if elems != [] {
      var init, last := elems[..|elems| - 1], elems[|elems| - 1];
      var r0 := StringsOf(init);
      StringsOfOrder(init);
      assert init + [last] == elems;
      if last.JString? {
        assert StringsOf(elems) == r0 + [last.s];
        assert JsonArrayOf(r0 + [last.s]) == JsonArrayOf(r0) + [last];
        SubsequenceSnoc(JsonArrayOf(r0), init, last);
      } else {
        assert StringsOf(elems) == r0;
        SubsequenceExtend(JsonArrayOf(r0), init, last);
      }
    }
  }

  /** The filter keeps repeats: each string occurs as often as it does in the array. */
  lemma {:induction false} StringsOfCounts(elems: seq<JsonValue>, s: string)
    ensures multiset(StringsOf(elems))[s] == multiset(elems)[JString(s)]
    decreases |elems|
  {
    if elems != [] {
      var init, last := elems[..|elems| - 1], elems[|elems| - 1];
      var r0 := StringsOf(init);
      StringsOfCounts(init, s);
      assert init + [last] == elems;
      CountSnoc(init, last, JString(s));
      if last.JString? {
        assert StringsOf(elems) == r0 + [last.s];
        CountSnoc(r0, last.s, s);
      } else {
        assert StringsOf(elems) == r0;
      }
    }
  }

  /**
   * `Array.from(new Set(ids))`: each id added to a set in turn, so the first
   * occurrence of every id is kept, in order.
   */
  function Dedupe(ids: seq<string>): (r: seq<string>)
    ensures NoDup(r)
    ensures forall x :: x in r <==> x in ids
    ensures |r| <= |ids|
    decreases |ids|
  {
    if ids == [] then []
    else
      var init := ids[..|ids| - 1];
      var last := ids[|ids| - 1];
      var d := Dedupe(init);
      assert forall x :: x in ids <==> x in init || x == last;
      if last in d then d else d + [last]
  }

  /** A list without duplicates is its own dedupe. */
  lemma {:induction false} DedupeOfDistinct(ids: seq<string>)
    requires NoDup(ids)
    ensures Dedupe(ids) == ids
    decreases |ids|
  {
    if ids != [] {
      var init := ids[..|ids| - 1];
      assert NoDup(init);
      DedupeOfDistinct(init);
      assert ids[|ids| - 1] !in init;
      assert init + [ids[|ids| - 1]] == ids;
    }
  }

  /** The index of the first occurrence of `x`. */
  function FirstIndex(ids: seq<string>, x: string): (i: nat)
    requires x in ids
    ensures i < |ids| && ids[i] == x && x !in ids[..i]
  {
    if ids[0] == x then 0
    else
      var i := 1 + FirstIndex(ids[1..], x);
      assert ids[1..][..i - 1] == ids[1..i];
      i
  }

  /**
   * The dedupe keeps first occurrences in their original order: of any two
   * kept ids, the earlier one first occurs earlier in the input.
   */
  lemma {:induction false} DedupeKeepsFirstOrder(ids: seq<string>, a: nat, b: nat)
    requires a < b < |Dedupe(ids)|
    ensures FirstIndex(ids, Dedupe(ids)[a]) < FirstIndex(ids, Dedupe(ids)[b])
    decreases |ids|
  {
    var init := ids[..|ids| - 1];
    var last := ids[|ids| - 1];
    var d := Dedupe(init);
    var r := Dedupe(ids);
    FirstIndexPrefix(ids, r[a]);
    if b < |d| {
      FirstIndexPrefix(ids, r[b]);
      DedupeKeepsFirstOrder(init, a, b);
    } else {
      assert r[b] == last && last !in d;
      assert last !in init;
      assert forall m :: 0 <= m < |ids| - 1 ==> ids[m] != last by {
        forall m | 0 <= m < |ids| - 1 ensures ids[m] != last {
          assert init[m] == ids[m];
        }
      }
    }
  }

  /** First occurrences of ids already in the prefix are found in the prefix. */
  lemma FirstIndexPrefix(ids: seq<string>, x: string)
    requires ids != [] && x in ids[..|ids| - 1]
    ensures FirstIndex(ids, x) == FirstIndex(ids[..|ids| - 1], x)
  {
    var init := ids[..|ids| - 1];
    var k, k' := FirstIndex(ids, x), FirstIndex(init, x);
    assert forall m :: 0 <= m < k' ==> ids[m] != x by {
      forall m | 0 <= m < k' ensures ids[m] != x {
        assert init[..k'][m] == ids[m];
      }
    }
    assert forall m :: 0 <= m < k ==> ids[m] != x by {
      forall m | 0 <= m < k ensures ids[m] != x {
        assert ids[..k][m] == ids[m];
      }
    }
    assert ids[k'] == x;
  }

  /**
   * The list `toggleWatch(id)` computes from the current list: the set
   * `list` loses `id` if it has it, and otherwise gains it at the end.
   */
  function Toggled(list: seq<string>, id: string): seq<string> {
    if id in list then RemoveAll(list, id) else list + [id]
  }

  /** Toggling flips the membership of `id`, and of nothing else. */
  lemma ToggledMembership(list: seq<string>, id: string)
    ensures id in Toggled(list, id) <==> id !in list
    ensures forall x :: x != id ==> (x in Toggled(list, id) <==> x in list)
  {
  }

  /**
   * On a duplicate-free list the toggle keeps the list duplicate-free,
   * appends a new id at the end, and otherwise cuts out the one entry that
   * holds `id`, the remaining ids keeping their order.
   */
  lemma ToggledShape(list: seq<string>, id: string)
    requires NoDup(list)
    ensures NoDup(Toggled(list, id))
    ensures id !in list ==> Toggled(list, id) == list + [id]
    ensures id in list ==> |Toggled(list, id)| == |list| - 1
    ensures id in list ==> var k := FirstIndex(list, id);
      Toggled(list, id) == list[..k] + list[k + 1..]
    ensures id in list ==> SubsequenceOf(Toggled(list, id), list)
  {
    if id in list {
      var k := FirstIndex(list, id);
      RemoveAt(list, k);
      RemoveAllKeepsOrder(list, id);
      assert Toggled(list, id) == RemoveAll(list, id);
      assert |list[..k] + list[k + 1..]| == |list| - 1;
    } else {
      assert Toggled(list, id) == list + [id];
      NoDupSnoc(list, id);
    }
  }

  /** Toggling the same id twice restores every id's membership. */
  lemma ToggleTwiceMembership(list: seq<string>, id: string)
    ensures forall x :: x in Toggled(Toggled(list, id), id) <==> x in list
  {
    ToggledMembership(list, id);
    ToggledMembership(Toggled(list, id), id);
  }

  /** The JSON array of a list of ids. */
  function JsonArrayOf(ids: seq<string>): (elems: seq<JsonValue>)
    ensures |elems| == |ids| && forall i :: 0 <= i < |ids| ==> elems[i] == JString(ids[i])
  {
    seq(|ids|, i requires 0 <= i < |ids| => JString(ids[i]))
  }

  /** The entry `setWatchlist(ids)` writes. */
  function Written(ids: seq<string>): StoredEntry {
    Parsed(JArray(JsonArrayOf(Dedupe(ids))))
  }

  /** Reading back what `setWatchlist(ids)` wrote yields the deduplicated list. */
  lemma {:induction false} WrittenReadsBack(ids: seq<string>)
    ensures StoredIds(Written(ids)) == Dedupe(ids)
  {
    StringsOfAll(Dedupe(ids));
  }

  lemma {:induction false} StringsOfAll(ids: seq<string>)
    ensures StringsOf(JsonArrayOf(ids)) == ids
    decreases |ids|
  {
    if ids != [] {
      var init, last := ids[..|ids| - 1], ids[|ids| - 1];
      var elems := JsonArrayOf(ids);
      assert elems[..|elems| - 1] == JsonArrayOf(init);
      assert elems[|elems| - 1] == JString(last);
      StringsOfAll(init);
      assert StringsOf(elems) == StringsOf(JsonArrayOf(init)) + [last];
      assert init + [last] == ids;
    }
  }

  /** The storage entry under the key 'watchlist'. */
  class WatchlistStore {
    var entry: StoredEntry

    constructor (initial: StoredEntry)
      ensures entry == initial
    {
      entry := initial;
    }

    /** `getWatchlist()`: the string ids of a stored array, else []. */
    method GetWatchlist() returns (ids: seq<string>)
      ensures ids == StoredIds(entry)
      ensures entry.Missing? || entry.Unparseable? ==> ids == []
    {
      match entry
      case Missing => ids := [];
      case Unparseable => ids := [];
      case Parsed(json) =>
        ids := if json.JArray? then StringsOf(json.elems) else [];
    }

    /** `setWatchlist(ids)`: stores the list without duplicates. */
    method SetWatchlist(ids: seq<string>)
      modifies this
      ensures entry == Written(ids)
      ensures StoredIds(entry) == Dedupe(ids)
    {
      var unique := Dedupe(ids);
      entry := Parsed(JArray(JsonArrayOf(unique)));
      WrittenReadsBack(ids);
    }

    /** `isWatched(id)`. */
    method IsWatched(id: string) returns (watched: bool)
      ensures watched <==> id in StoredIds(entry)
    {
      var ids := GetWatchlist();
      watched := id in ids;
    }

    /**
     * `toggleWatch(id)`: the stored ids become a set, `id` is deleted from
     * it or added to it, and the result is stored and returned.
     */
    method ToggleWatch(id: string) returns (next: seq<string>)
      modifies this
      ensures next == Toggled(Dedupe(StoredIds(old(entry))), id)
      ensures entry == Written(next)
      ensures StoredIds(entry) == next
      ensures id in next <==> id !in StoredIds(old(entry))
      ensures forall x :: x != id ==> (x in next <==> x in StoredIds(old(entry)))
      ensures NoDup(next)
    {
      var current := GetWatchlist();
      var list := Dedupe(current);
      if id in list {
        list := RemoveAll(list, id);
      } else {
        list := list + [id];
      }
      next := list;
      ToggledShape(Dedupe(current), id);
      SetWatchlist(next);
      DedupeOfDistinct(next);
    }
  }
}

=== FILE: url.dfy ===
/**
 * src/lib/url.ts: turning a query record into `URLSearchParams` and back,
 * and the permissive parsers the page uses on the raw strings it reads
 * from the address bar.
 *
 * `URLSearchParams` is modelled as its list of name-value pairs; the
 * percent-encoding of `toString()` and its decoding are left abstract, so a
 * query string is the list of pairs it serialises.
 */
module Url {
  import opened JsRuntime

  /** One value of a `Query` record. */
  datatype QueryValue = Str(s: string) | Number(n: Num) | Bool(b: bool) | Undefined | Null

  /** `Object.entries(q)`: the record's keys, in order, with their values. */
  type Entry = (string, QueryValue)

  /** The name-value list of a `URLSearchParams`. */
  type Pairs = seq<(string, string)>

  /** A record's keys are distinct. */
  predicate DistinctKeys(q: seq<Entry>) {
    forall i, j :: 0 <= i < j < |q| ==> q[i].0 != q[j].0
  }

  /** `toQueryString` skips `undefined`, `null` and `""`. */
  predicate Kept(v: QueryValue) {
    !(v == Undefined || v == Null || v == Str(""))
  }

  /** `String(v)`. */
  function StringOf(v: QueryValue): string {
    match v
    case Str(s) => s
    case Number(n) => NumToString(n)
    case Bool(b) => if b then "true" else "false"
    case Undefined => "undefined"
    case Null => "null"
  }

  /** The names in a pair list. */
  function Names(sp: Pairs): set<string> {
    set i | 0 <= i < |sp| :: sp[i].0
  }

  /** Every pair named `k` removed. */
  function DropName(sp: Pairs, k: string): (r: Pairs)
    ensures k !in Names(r)
    ensures Names(r) <= Names(sp)
    decreases |sp|
  {
    if sp == [] then []
    else if sp[0].0 == k then DropName(sp[1..], k)
    else
      var rest := DropName(sp[1..], k);
      assert forall n :: n in Names(rest) ==> n in Names(sp) by {
        forall n | n in Names(rest) ensures n in Names(sp) {
          var i :| 0 <= i < |rest| && rest[i].0 == n;
          assert exists j :: 0 <= j < |sp[1..]| && sp[1..][j].0 == n;
          var j :| 0 <= j < |sp[1..]| && sp[1..][j].0 == n;
          assert sp[j + 1].0 == n;
        }
      }
      [sp[0]] + rest
  }

  /**
   * `sp.set(k, v)` on the list of name-value pairs of a `URLSearchParams`
   * (WHATWG URL Standard, section 6.2): the first pair named `k` takes the value `v` and
   * later pairs named `k` are removed; with no such pair, `(k, v)` is appended.
   */
  function SetPair(sp: Pairs, k: string, v: string): (r: Pairs)
    decreases |sp|
  {
    if sp == [] then [(k, v)]
    else if sp[0].0 == k then [(k, v)] + DropName(sp[1..], k)
    else [sp[0]] + SetPair(sp[1..], k, v)
  }

  /** Setting a name the list does not hold appends the pair. */
  lemma {:induction false} SetPairAppends(sp: Pairs, k: string, v: string)
    requires k !in Names(sp)
    ensures SetPair(sp, k, v) == sp + [(k, v)]
    decreases |sp|
  {
    if sp != [] {
      assert sp[0].0 != k;
      assert Names(sp[1..]) <= Names(sp) by {
        forall n | n in Names(sp[1..]) ensures n in Names(sp) {
          var i :| 0 <= i < |sp[1..]| && sp[1..][i].0 == n;
          assert sp[i + 1].0 == n;
        }
      }
      SetPairAppends(sp[1..], k, v);
      assert [sp[0]] + (sp[1..] + [(k, v)]) == sp + [(k, v)];
    }
  }

  /**
   * The pairs that `toQueryString(q)` sets, one `sp.set` per entry of `q`
   * in order, skipping the values `Kept` rejects.
   */
  function Serialize(q: seq<Entry>): Pairs
    decreases |q|
  {
    if q == [] then []
    else
      var (k, v) := q[|q| - 1];
      var init := Serialize(q[..|q| - 1]);
      if Kept(v) then SetPair(init, k, StringOf(v)) else init
  }

  /** The kept entries of `q`, in order, each with `String` of its value. */
  function Retained(q: seq<Entry>): (r: Pairs)
    ensures Names(r) == set i | 0 <= i < |q| && Kept(q[i].1) :: q[i].0
    decreases |q|
  {
    if q == [] then []
    else
      var init := Retained(q[..|q| - 1]);
      var last := q[|q| - 1];
      var r := init + (if Kept(last.1) then [(last.0, StringOf(last.1))] else []);
      assert Names(r) == Names(init) + (if Kept(last.1) then {last.0} else {}) by {
        forall n | n in Names(r) ensures n in Names(init) + (if Kept(last.1) then {last.0} else {}) {
          var i :| 0 <= i < |r| && r[i].0 == n;
          if i < |init| { assert init[i].0 == n; }
        }
        forall n | n in Names(init) ensures n in Names(r) {
          var i :| 0 <= i < |init| && init[i].0 == n;
          assert r[i].0 == n;
        }
        if Kept(last.1) { assert r[|init|].0 == last.0; }
      }
      assert forall i :: 0 <= i < |q| - 1 ==> q[..|q| - 1][i] == q[i];
      r
  }

  /**
   * For a record (distinct keys) the serialised list is exactly the kept
   * entries, in order, each once, with `String(v)` as its value.
   */
  lemma {:induction false} SerializeRecord(q: seq<Entry>)
    requires DistinctKeys(q)
    ensures Serialize(q) == Retained(q)
    decreases |q|
  {
    if q != [] {
      var init := q[..|q| - 1];
      var (k, v) := q[|q| - 1];
      assert DistinctKeys(init);
      SerializeRecord(init);
      if Kept(v) {
        assert k !in Names(Retained(init)) by {
          forall i | 0 <= i < |init| ensures init[i].0 != k {
            assert init[i].0 == q[i].0;
          }
        }
        SetPairAppends(Retained(init), k, StringOf(v));
      }
    }
  }

  /** `toQueryString(q)`: the pairs of the `URLSearchParams` it builds. */
  method ToQueryString(q: seq<Entry>) returns (sp: Pairs)
    ensures sp == Serialize(q)
    ensures DistinctKeys(q) ==> sp == Retained(q)
    ensures DistinctKeys(q) ==> Names(sp) == set i | 0 <= i < |q| && Kept(q[i].1) :: q[i].0
  {
    sp := [];
    var i := 0;
    while i < |q|
      invariant 0 <= i <= |q|
      invariant sp == Serialize(q[..i])
    {
      var (k, v) := q[i];
      assert q[..i + 1][..i] == q[..i];
      if !(v == Undefined || v == Null || v == Str("")) {
        sp := SetPair(sp, k, StringOf(v));
      }
      i := i + 1;
    }
    assert q[..|q|] == q;
    if DistinctKeys(q) {
      SerializeRecord(q);
    }
  }

  // ---------------------------------------------------------------------
  // Reading the query back

  /** The record `fromSearchParams` builds: each pair in turn assigns `out[k] = v`. */
  function Decode(sp: Pairs): map<string, string>
    decreases |sp|
  {
    if sp == [] then map[]
    else Decode(sp[..|sp| - 1])[sp[|sp| - 1].0 := sp[|sp| - 1].1]
  }

  /**
   * Every name present becomes a key, with the raw string value of its LAST
   * occurrence, and nothing else is a key.
   */
  lemma {:induction false} DecodeLastWins(sp: Pairs)
    ensures Decode(sp).Keys == Names(sp)
    ensures forall i :: 0 <= i < |sp| && (forall j :: i < j < |sp| ==> sp[j].0 != sp[i].0) ==>
      Decode(sp)[sp[i].0] == sp[i].1
    decreases |sp|
  {
    if sp != [] {
      var init := sp[..|sp| - 1];
      DecodeLastWins(init);
      assert Names(sp) == Names(init) + {sp[|sp| - 1].0} by {
        forall n | n in Names(sp) ensures n in Names(init) + {sp[|sp| - 1].0} {
          var i :| 0 <= i < |sp| && sp[i].0 == n;
          if i < |init| { assert init[i].0 == n; }
        }
        forall n | n in Names(init) ensures n in Names(sp) {
          var i :| 0 <= i < |init| && init[i].0 == n;
          assert sp[i].0 == n;
        }
      }
      forall i | 0 <= i < |sp| && (forall j :: i < j < |sp| ==> sp[j].0 != sp[i].0)
        ensures Decode(sp)[sp[i].0] == sp[i].1
      {
        if i < |init| {
          assert init[i] == sp[i];
          assert forall j :: i < j < |init| ==> init[j].0 != init[i].0 by {
            forall j | i < j < |init| ensures init[j].0 != init[i].0 {
              assert init[j] == sp[j];
            }
          }
        }
      }
    }
  }

  /** `fromSearchParams(sp)`. */
  method FromSearchParams(sp: Pairs) returns (out: map<string, string>)
    ensures out.Keys == Names(sp)
    ensures forall i :: 0 <= i < |sp| && (forall j :: i < j < |sp| ==> sp[j].0 != sp[i].0) ==>
      out[sp[i].0] == sp[i].1
  {
    out := map[];
    var i := 0;
    while i < |sp|
      invariant 0 <= i <= |sp|
      invariant out == Decode(sp[..i])
    {
      var (k, v) := sp[i];
      assert sp[..i + 1][..i] == sp[..i];
      out := out[k := v];
      i := i + 1;
    }
    assert sp[..|sp|] == sp;
    DecodeLastWins(sp);
  }

  /** `m[k]` read as an optional string. */
  function Get(m: map<string, string>, k: string): Option<string> {
    if k in m then Some(m[k]) else None
  }

  /**
   * Round trip: reading back the query string of a record gives, for each
   * kept key, `String` of its value, and no other key.
   */
  lemma QueryRoundTrip(q: seq<Entry>)
    requires DistinctKeys(q)
    ensures Decode(Serialize(q)).Keys == set i | 0 <= i < |q| && Kept(q[i].1) :: q[i].0
    ensures forall i :: 0 <= i < |q| ==>
      Get(Decode(Serialize(q)), q[i].0) == if Kept(q[i].1) then Some(StringOf(q[i].1)) else None
  {
    SerializeRecord(q);
    var r := Retained(q);
    DecodeLastWins(r);
    forall i | 0 <= i < |q|
      ensures Get(Decode(r), q[i].0) == if Kept(q[i].1) then Some(StringOf(q[i].1)) else None
    {
      var p := RetainedAt(q, i);
    }
  }

  /**
   * Where a kept entry lands in `Retained(q)` (position `p`, with no later
   * pair of the same name), and that a skipped entry's name is absent.
   */
  lemma {:induction false} RetainedAt(q: seq<Entry>, i: nat) returns (p: nat)
    requires DistinctKeys(q) && i < |q|
    ensures Kept(q[i].1) ==> p < |Retained(q)| && Retained(q)[p] == (q[i].0, StringOf(q[i].1))
    ensures Kept(q[i].1) ==> forall j :: p < j < |Retained(q)| ==> Retained(q)[j].0 != q[i].0
    ensures !Kept(q[i].1) ==> q[i].0 !in Names(Retained(q))
    decreases |q|
  {
    var init := q[..|q| - 1];
    var last := q[|q| - 1];
    var r := Retained(q);
    assert DistinctKeys(init);
    if i == |q| - 1 {
      p := if Kept(last.1) then |r| - 1 else 0;
      if !Kept(last.1) {
        assert r == Retained(init);
        forall j | 0 <= j < |init| ensures init[j].0 != last.0 {
          assert init[j].0 == q[j].0;
        }
      }
    } else {
      assert init[i] == q[i];
      p := RetainedAt(init, i);
      var ri := Retained(init);
      if Kept(q[i].1) {
        assert r[p] == ri[p];
        forall j | p < j < |r| ensures r[j].0 != q[i].0 {
          if j < |ri| { assert r[j] == ri[j]; } else { assert r[j].0 == last.0; }
        }
      } else {
        assert q[i].0 != last.0;
      }
    }
  }

  // ---------------------------------------------------------------------
  // Permissive parsers

  /** `parseNumber(v)`: undefined for a missing or empty value and for NaN. */
  function ParseNumber(v: Option<string>): (r: Option<Num>)
    ensures r != Some(NaN)
    ensures v == None || v == Some("") ==> r == None
    ensures v.Some? && ToNumber(v.value) == NaN ==> r == None
    ensures r.Some? ==> v.Some? && r.value == ToNumber(v.value)
    ensures v.Some? && v.value != "" && ToNumber(v.value) != NaN ==> r == Some(ToNumber(v.value))
  {
    if (v == None || v.value == "") && v != Some("0") then None
    else
      var n := ToNumber(v.value);
      if n == NaN then None else Some(n)
  }

  /** `parseNumber(String(n))` gives back the integer `n`. */
  lemma ParseNumberRoundTrip(n: int)
    ensures ParseNumber(Some(IntToString(n))) == Some(Int(n))
  {
    IntToStringRoundTrip(n);
  }

  /** `parseBool(v)`: true exactly for "true"; never false. */
  function ParseBool(v: Option<string>): (r: Option<bool>)
    ensures r != Some(false)
    ensures r == Some(true) <==> v == Some("true")
    ensures v == Some("false") ==> r == None
  {
    if v == Some("true") then Some(true)
    else if v == Some("false") then None
    else None
  }
}
